=== FILE: README.md ===
# Templ lexer, content splitter and loaders in Dafny

A Dafny model of the front end of the Templ template engine, a Swift port
of Stencil:

- **The scanner and lexer.** They turn a template string into text,
  variable (`{{ … }}`), block (`{% … %}`) and comment (`{# … #}`) tokens.
  Each token carries a source map pointing back to a line of the template.
- **The whitespace-control markers of block tags.** `+` keeps whitespace
  and `-` trims it.
- **The content splitter.** `smartSplit` and `appendWord` cut a tag's inner
  text into components. They keep quoted phrases together, merge
  punctuation and split off parentheses.
- **The token value types.**
- **The template loaders.** This covers the default "first name that
  exists" lookup, the dictionary loader, and the file-system loader with
  its guard against paths that escape the base directory.

Strings are sequences of Unicode scalars (`seq<char>`). Positions and
ranges count scalars from the start of the template.

The Swift `Scanner` is a mutable class. Here it is an immutable record, and
each scan returns the scanner's next state. The tokenizing loop is a
recursive function over the remaining content; each turn strictly shortens
it or ends the loop.

The file system is a parameter of the file-system loader. It is made of
three functions:
- `resolve` stands for `appending(path:)`, then `standardized`, then `path()`;
- `probe` stands for `checkResourceIsReachable`: reachable, unreachable, or
  throws;
- `read` stands for `String(contentsOf:)`, which may throw.

Modules:

| file | module | models |
|---|---|---|
| wrappers.dfy | `Wrappers` | `Option`, `Result` |
| strings.dfy | `Strings` | `findFirstNot`, `findLastNot`, `trim(character:)` and the Foundation calls the lexer makes: `components(separatedBy:)`, `joined(separator:)`, `range(of:range:)` |
| scanner.dfy | `Scanning` | `Scanner` |
| lexer.dfy | `Lexing` | `Lexer`: line table, `rangeLocation`, `behaviour`, `createToken` and `strip`, `tokenize` |
| lexer_properties.dfy | `LexerProperties` | what `tokenize` guarantees |
| smart_split.dfy | `SmartSplit` | `smartSplit`, `appendWord` |
| tokens.dfy | `Tokens` | `Token`, `SourceMap`, `WhitespaceBehaviour`, `components`, `==` |
| loader.dfy | `Loading` | default `loadTemplate(names:)`, `DictionaryLoader`, `FileSystemLoader`, `safeAppending` |

Behaviour of the code that is easy to get wrong, modelled as written:
- `smartSplit("a, b")` is `["a,b"]`. A word after a component ending in `,`
  is glued onto it; it is not `["a,", "b"]`.
- `smartSplit("outer, for")` is `["outer,", "for"]`, but
  `smartSplit("x y, for")` is `["x", "y,for"]`. Only a `for` after the
  first component is kept apart.
- `smartSplit("(a)")` is `["(a)"]`. The first word never has a parenthesis
  split off.
- An unquoted separator ends a word when at least ONE of the two quote
  counts is even. So after `'"'"'"`, where both counts are three, a space
  is dropped and the next word is glued on (`SmartSplit.SplitBothCountsOdd`).
- `FileSystemLoader` reports every error as a missing template, a
  suspicious path included. It does not report such paths as a distinct
  error.
- `trim(character:)` never inspects index 0 from the right. So `"x "` comes
  back unchanged. `Strings.Trim` states exactly when this happens, and
  `strip` uses it as written.
- A line of only spaces inside a tag is not empty, so `strip` keeps it, and
  the trim leaves it whole (`Lexing.BlockSpacesLine`).

## Model

| member | source | states |
|---|---|---|
| Strings.Split | Sources/Templ/Lexer.swift:79 | splitting on a separator gives at least one part, and no part holds the separator |
| Strings.JoinSplit | Sources/Templ/Lexer.swift:79-82 | joining the parts of a split with the separator gives back the original string |
| Strings.SplitJoin | Sources/Templ/Lexer.swift:79-82 | splitting undoes joining when no part holds the separator |
| Strings.SplitLines | Sources/Templ/Lexer.swift:49 | splitting on the newline character set gives at least one line, and no line holds a newline |
| Strings.SplitLinesIsSplit | Sources/Templ/Lexer.swift:49 | the lines are exactly the parts of splitting on `\n` once every newline scalar of the template has been written as `\n` |
| Strings.JoinSplitLines | Sources/Templ/Lexer.swift:49 | joining the lines with `\n` gives back the template with every newline scalar written as `\n` |
| Strings.SplitLinesCrLf | Sources/Templ/Lexer.swift:49 | a carriage return followed by a line feed counts as two newlines, with an empty line between them |
| Strings.SplitLinesPartsOccur | Sources/Templ/Lexer.swift:49-51 | every line of the split occurs in the template it was cut from |
| Strings.FindIn | Sources/Templ/Lexer.swift:94 | the search inside a window finds the first occurrence lying wholly in the window, never finds an empty pattern, and reports absence only when there is no occurrence |
| Strings.FindFirstNot | Sources/Templ/Lexer.swift:236-247 | the first index not holding the character, or none when every character is it |
| Strings.FindLastNot | Sources/Templ/Lexer.swift:249-260 | one past the last index ≥ 1 not holding the character; index 0 is never inspected, so the result is at least 2 or none |
| Strings.Trim | Sources/Templ/Lexer.swift:262-266 | when the trailing run of the character stops before index 1 (some scalar after the first differs), both runs of the character, as measured by the reference run lengths, are removed and the result neither starts nor ends with it; otherwise the string comes back unchanged; the result holds only scalars of the string |
| SmartSplit.AppendWord | Sources/Templ/Tokenizer.swift:49-74 | appending a word adds exactly its characters to the concatenation of the components, keeps all earlier components, keeps the first word whole, and never creates an empty component |
| SmartSplit.RunConcat | Sources/Templ/Tokenizer.swift:18-40 | the character loop keeps the components followed by the pending word equal to the input read so far, minus the separators met outside quotes |
| SmartSplit.Split | Sources/Templ/Tokenizer.swift:11-47 | no component is empty, and the components concatenate to the input with exactly the out-of-quote separators removed; quotes and every other character are kept in order |
| SmartSplit.SplitPlain | Sources/Templ/Tokenizer.swift:11-47 | on text without quotes, punctuation or parentheses, the components are exactly the non-empty separator-delimited parts |
| SmartSplit.SplitKeepsQuoted | Sources/Templ/Tokenizer.swift:10-73 | a phrase from a quote to the same quote, opened outside any quoted region, lies whole inside one component, whatever separators it holds and whatever comes before or after it |
| SmartSplit.SplitResumes | Sources/Templ/Tokenizer.swift:25-33 | a separator read outside quotes, with at least one of the two quote counts even, ends the pending word: the split goes on from the components of the text before it, with no word pending |
| SmartSplit.SplitDropsSeparator | Sources/Templ/Tokenizer.swift:19-33 | with both quote counts odd and no quoted region open, a separator that is not a quote is dropped: the split is that of the text without it |
| SmartSplit.SplitIncludeQuoted | Sources/Templ/Tokenizer.swift:10-73 | `include 'a b'` splits into `include` and `'a b'` |
| SmartSplit.SplitCommaMerges | Sources/Templ/Tokenizer.swift:52-58 | `a, b` splits into the single component `a,b` |
| SmartSplit.SplitLabelledFor | Sources/Templ/Tokenizer.swift:52-56 | `outer, for` splits into `outer,` and `for`: after a single component ending in `,`, the word `for` starts a new component |
| SmartSplit.SplitLaterForMerges | Sources/Templ/Tokenizer.swift:52-58 | `x y, for` splits into `x` and `y,for`: with more than one component the word `for` is glued on like any other |
| SmartSplit.SplitSpecialsPiece | Sources/Templ/Tokenizer.swift:60-61 | `a |:` splits into the single component `a|:`, since `|:` is a substring of `,|:` |
| SmartSplit.SplitLeadingClose | Sources/Templ/Tokenizer.swift:62-64 | `x )a` splits into `x`, `)` and `a`: a leading `)` is cut off a later word |
| SmartSplit.SplitParenFirstWord | Sources/Templ/Tokenizer.swift:71-73 | `(a)` stays one component, since the first word is never cut |
| SmartSplit.SplitTrailingOpen | Sources/Templ/Tokenizer.swift:65-67 | `x a(` splits into `x`, `a` and `(`: a trailing `(` is cut off a later word |
| SmartSplit.SplitParenLater | Sources/Templ/Tokenizer.swift:62-67 | `x (a)` splits into `x`, `(`, `a` and `)` |
| SmartSplit.SplitBothCountsOdd | Sources/Templ/Tokenizer.swift:19-33 | after three single and three double quotes, all regions closed, the space is dropped and `'"'"'" x` is one component |
| Tokens.Components | Sources/Templ/Tokenizer.swift:124 | a token's components are non-empty and spell its contents minus the unquoted spaces |
| Tokens.SameTokenErasesWhitespace | Sources/Templ/Tokenizer.swift:157-159 | two tokens are equal exactly when they agree once the whitespace behaviour is erased |
| Tokens.BlockWhitespaceIgnored | Sources/Templ/Tokenizer.swift:149-159 | block tokens differing only in whitespace behaviour are equal as tokens though distinct as records |
| Scanning.ScanStart | Sources/Templ/Lexer.swift:217-231 | the scan with a one-scalar brace flag stops at the first `{` followed by an opening character, and finds none only when there is none |
| Scanning.ScanEnd | Sources/Templ/Lexer.swift:184-198 | the scan with a one-scalar flag stops at the first closing character followed by `}`, and finds none only when there is none |
| Scanning.ScanForTokenStart | Sources/Templ/Lexer.swift:216-232 | on success the text and the new content concatenate to the old content, the new content starts with `{` and the found character, the text holds no tag opening, and the range covers exactly the text; on failure the content is unchanged and the range collapses to its upper bound |
| Scanning.ScanForTokenEnd | Sources/Templ/Lexer.swift:183-199 | on success the result is the shortest prefix ending in the closing character and `}`, it and the new content concatenate to the old content, and the range covers exactly the result; otherwise the result is empty, the content is emptied and the range is unchanged |
| Lexing.LineTable | Sources/Templ/Lexer.swift:45-54 | each entry is a non-empty line of the template with its 1-based number and the range of its first occurrence; numbers strictly increase |
| Lexing.LineTableComplete | Sources/Templ/Lexer.swift:49-53 | every non-empty line of the template has an entry with its number and content, since a line always occurs in the template it was cut from |
| Lexing.FirstLineContaining | Sources/Templ/Lexer.swift:144 | the first line whose range contains the position, or none when no line does |
| Lexing.RangeLocation | Sources/Templ/Lexer.swift:143-149 | the empty location exactly when no line contains the range's start; otherwise the content and number of the first line whose range contains it, with the distance from that line's start; over a line table the offset lies inside the line and points at the template's character at the range's start |
| Lexing.MarkerBehaviour | Sources/Templ/Lexer.swift:40-43 | `+` means keep, `-` means trim, anything else is unspecified |
| Lexing.WhitespaceOf | Sources/Templ/Lexer.swift:56-64 | the leading marker is the scalar at index 2 and the trailing one the scalar three from the end; strings with fewer than two scalars have no markers |
| Lexing.Strip | Sources/Templ/Lexer.swift:76-84 | nothing is left unless the string is longer than the two strip lengths, and the result holds no newline |
| Lexing.StripLines | Sources/Templ/Lexer.swift:76-84 | for any body cut into newline-free lines, the result is those lines with the empty ones dropped, each trimmed of spaces, joined by single spaces |
| Lexing.StripOneLine | Sources/Templ/Lexer.swift:76-84 | a body with no newline comes back trimmed of spaces and nothing else |
| Lexing.BlockOverLines | Sources/Templ/Lexer.swift:76-84 | a block whose tag is spread over five lines, the first and last empty, reads `if name and name` |
| Lexing.BlockSpacesLine | Sources/Templ/Lexer.swift:79-82 | a line of spaces alone is not empty, so it is kept, and since the trim cannot shorten it, it survives whole: `{% a\n\n   \n b%}` reads `a`, the three spaces and `b`, joined by single spaces |
| Lexing.OpensIsPrefix | Sources/Templ/Lexer.swift:86 | a string opens with `{` and a given character exactly when that two-scalar string is its prefix |
| Lexing.ValueRange | Sources/Templ/Lexer.swift:94 | a tag value is located at its first occurrence inside the tag's range, or at the whole range when it does not occur there, as for an empty value |
| Lexing.CreateToken | Sources/Templ/Lexer.swift:75-110 | the kind is variable, block or comment exactly when the string opens with `{{`, `{%` or `{#`, and text otherwise; text tokens keep the string and its range's location; tag contents are stripped with the marker lengths, hold no newline and are empty for strings of at most four scalars; only blocks carry a whitespace behaviour, read from their markers |
| Lexing.LoopTurn | Sources/Templ/Lexer.swift:120-132 | every piece of a loop turn can be handed to token creation, and the next scanner is valid with strictly shorter content |
| Lexing.TagTurn | Sources/Templ/Lexer.swift:126-128 | the tag scanned after an opening gives a piece that can be handed to token creation, and the loop goes on only with a valid scanner whose content is strictly shorter |
| Lexing.Slices | Sources/Templ/Lexer.swift:116-136 | every piece the loop produces lies inside the template and is never the two-scalar string `{%` |
| Lexing.Tokenize | Sources/Templ/Lexer.swift:116-136 | one token for each piece the scanner loop yields |
| LexerProperties.TurnFacts | Sources/Templ/Lexer.swift:119-133 | one loop turn yields pieces that are tags or tag-free text at their ranges; only its last piece can be empty; the pieces followed by the remaining content spell the old content |
| LexerProperties.SlicesTile | Sources/Templ/Lexer.swift:116-136 | all pieces are tags or tag-free text at their ranges, only the last may be empty, and they spell the content, or stop where a tag opens that never closes: what is dropped is `{` and an opening character with no closing pair after them |
| LexerProperties.SlicesPlaced | Sources/Templ/Lexer.swift:116-136 | every piece's range sits where the piece falls in the content: a tag, or a text before more pieces, covers exactly its scalars; the final text has the range collapsed to where it starts; the empty piece of a never-closed tag ends where that tag opens and starts where the text before it starts |
| LexerProperties.TokenizePlaced | Sources/Templ/Lexer.swift:116-136 | each token is created from its piece and that piece's range, and the ranges are placed as in `SlicesPlaced`, counting from the template's start |
| LexerProperties.TokenizeLossless | Sources/Templ/Lexer.swift:116-136 | the pieces spell the template, or the template up to a tag opening that never closes, whose piece is then the empty last one |
| LexerProperties.TokenizeShape | Sources/Templ/Lexer.swift:86-109 | each token is text exactly when its piece is tag-free text, and then carries the piece unchanged; otherwise the piece is a whole tag and its second scalar decides variable, block or comment |
| LexerProperties.TokenizePlainText | Sources/Templ/Lexer.swift:129-131 | a template with no tag opening gives one text token holding the whole template, or no token when it is empty |
| Loading.LoadFirst | Sources/Templ/Loader.swift:19-31 | the first name whose load is not a missing-template error decides the outcome, a template or that error; the result is a missing-template error naming every name exactly when every name is missing |
| Loading.DictLoad | Sources/Templ/Loader.swift:100-106 | the load succeeds exactly when the name is a key and returns its text; otherwise the error names just that name |
| Loading.DictLoadNames | Sources/Templ/Loader.swift:108-116 | the first name in list order that is a key wins; fails, naming every name, exactly when none is a key |
| Loading.DictLoadNamesIsLoadFirst | Sources/Templ/Loader.swift:108-116 | the dictionary's own multi-name lookup equals the default one built on its single-name lookup |
| Loading.SafeAppending | Sources/Templ/Loader.swift:120-128 | the resolved path is accepted exactly when it starts with the base path; otherwise it is refused as a suspicious operation naming both paths |
| Loading.TryPath | Sources/Templ/Loader.swift:57-63 | a file is found only at the resolved path inside the base path, after a reachable probe and a successful read; an escaping path is a suspicious-operation failure |
| Loading.FsLoad | Sources/Templ/Loader.swift:54-71 | succeeds exactly when some base path holds the file and every earlier one lacks it; every failure, errors included, is a missing template naming just that name |
| Loading.FsLoadRefusesEscape | Sources/Templ/Loader.swift:54-71 | a name resolving outside the first base path is refused there as a suspicious operation naming the base and the resolved path, and the load reports the name missing |
| Loading.FsLoadConfined | Sources/Templ/Loader.swift:120-128 | a loaded template was read from a path inside one of the base paths |
| Loading.FsLoadNames | Sources/Templ/Loader.swift:73-90 | a loaded template is the first file found in path-major order, under its own name, with nothing found at any earlier position; every failure is a missing template naming all names |
| Loading.FsLoadNamesFinds | Sources/Templ/Loader.swift:73-84 | conversely, a file found at some base path for some name, with nothing found and nothing failing at any earlier position in path-major order, is the template returned |
| Loading.FsLoadNamesSinglePath | Sources/Templ/Loader.swift:73-90 | with one base path and no failing file operation, the multi-name lookup equals the default one built on the single-name lookup |

## Left out

- Grapheme clusters. Swift `String.count`, `dropFirst`/`dropLast` in
  `strip`, `String.distance` in `rangeLocation` and the `Character` loop
  of `smartSplit` count grapheme clusters. The model counts Unicode scalars
  throughout. Templates with combining marks, or with a `"\r\n"` pair
  (one grapheme), can get different lengths and offsets.
- Unicode comparison. Swift compares canonically equivalent strings as
  equal. This affects `range(of:)` in `createToken` and in the line table,
  `hasPrefix` in `createToken` and in `safeAppending`, `==` against `"for"`
  in `appendWord`, and `contains` on `",|:"` there too. The model compares
  scalars exactly.
- `Lexer`'s `Hashable` conformance (equality and hashing by template
  string). It plays no part in lexing.
- The lazy memoisation and `@unchecked Sendable` of `Token.components`.
  `Tokens.Components` is a pure function of the contents.
- `SourceMap`'s explicit `==`. It is the structural equality the datatype
  already has.
- `FileSystemLoader.init(paths:)`, `init(bundle:)` and `description`.
  Base paths are given as strings.
- `Environment` and `templateClass.init`. A loaded template is its name and
  text.
- The `loader` field of `TemplateDoesNotExist`. It is a reference back to
  the loader and carries no logic.
- Real file-system access and URL standardisation. They are the
  `FileSystem` parameter.
- The `Stencil` copy of the loader and the `HummingbirdTempl` HTTP
  responses.
- Lexing.WhitespaceOf: requires the string not to be exactly two scalars
  long, because the source reads past the end of such a string (a trap).
- Lexing.CreateToken: requires the string not to be `{%` alone
  (`BareBlockOpening`), the one string on which the marker reading traps.
  `tokenize` never produces it: `Lexing.Slices` proves that.
- Strings.FindLastNot: requires a non-empty string, because the source
  steps before the end index unconditionally. `Strings.Trim` inherits the
  requirement; `strip` only trims non-empty lines.
- Lexing.Tokenize: its contract states only the number of tokens. What the
  tokens are is stated by `LexerProperties.TokenizeShape`,
  `LexerProperties.TokenizeLossless`, `LexerProperties.TokenizePlaced` and
  `LexerProperties.TokenizePlainText`.
- Strings.DropEmpty: its contract states only that no part is empty. Order
  and contents are used through its definition in `SmartSplit.SplitPlain`.

=== FILE: lexer.dfy ===
/** The lexer: the line table built from a template, the location of a
    range within it, the whitespace markers of block tags, the stripping of
    tag delimiters, token creation and the tokenizing loop. */
module Lexing {
  import opened Wrappers
  import opened Strings
  import opened Tokens
  import opened Scanning

  /** The characters that, after a `{`, open a tag. */
  const TokenChars: seq<char> := ['{', '%', '#']

  /** The length of a tag's opening (or closing) delimiter. */
  const TagLength: nat := 2

  /** The closing character that pairs with each opening character. */
  const TokenCharMap: map<char, char> := map['{' := '}', '%' := '%', '#' := '#']

  /** Whitespace-control markers: `+` keeps, `-` trims. */
  const BehaviourMap: map<char, Behaviour> := map['+' := Keep, '-' := Trim]

  /** A non-empty line of the template, its 1-based number among all lines
      (empty ones included) and the range of its first occurrence. */
  datatype Line = Line(content: string, number: nat, range: Range)

  datatype Lexer = Lexer(templateName: Option<string>, templateString: string, lines: seq<Line>)

  /** What every entry of the line table satisfies. */
  predicate LineOk(s: string, l: Line)
  {
    && l.content != [] && l.number >= 1
    && OccursAt(s, l.content, l.range.lo) && l.range.hi == l.range.lo + |l.content|
    && forall p :: 0 <= p < l.range.lo ==> !OccursAt(s, l.content, p)
  }

  /** `r` holds valid entries for lines among `parts[k..]`, each with its
      1-based number and content, in increasing order of number. */
  predicate LinesOk(s: string, parts: seq<string>, k: nat, r: seq<Line>)
  {
    && (forall i :: 0 <= i < |r| ==> LineOk(s, r[i]))
    && (forall i :: 0 <= i < |r| ==> k < r[i].number <= |parts| && parts[r[i].number - 1] == r[i].content)
    && (forall i, j :: 0 <= i < j < |r| ==> r[i].number < r[j].number)
  }

  /** Entries for `parts[k..]`, numbered from `k + 1`, skipping empty parts. */
  function LinesFrom(s: string, parts: seq<string>, k: nat): (r: seq<Line>)
    requires k <= |parts|
    ensures LinesOk(s, parts, k, r)
    decreases |parts| - k
  {
    if k == |parts| then []
    else
      var rest := LinesFrom(s, parts, k + 1);
      if parts[k] == [] then
        SkipLine(s, parts, k, rest);
        rest
      else
        match FindIn(s, parts[k], 0, |s|)
        case None =>
          SkipLine(s, parts, k, rest);
          rest
        case Some(p) =>
          var line := Line(parts[k], k + 1, Range(p, p + |parts[k]|));
          FoundLine(s, parts[k], p, k + 1);
          ConsLine(s, parts, k, line, rest);
          [line] + rest
  }

  lemma SkipLine(s: string, parts: seq<string>, k: nat, rest: seq<Line>)
    requires LinesOk(s, parts, k + 1, rest)
    ensures LinesOk(s, parts, k, rest)
  {
  }

  /** A non-empty line found first at `p` is a valid entry. */
  lemma FoundLine(s: string, part: string, p: nat, number: nat)
    requires part != [] && number >= 1 && FindIn(s, part, 0, |s|) == Some(p)
    ensures LineOk(s, Line(part, number, Range(p, p + |part|)))
  {
  }

  lemma ConsLine(s: string, parts: seq<string>, k: nat, line: Line, rest: seq<Line>)
    requires k < |parts| && LineOk(s, line) && line.number == k + 1 && line.content == parts[k]
    requires LinesOk(s, parts, k + 1, rest)
    ensures LinesOk(s, parts, k, [line] + rest)
  {
    var r := [line] + rest;
    assert forall i :: 0 < i < |r| ==> r[i] == rest[i - 1];
  }

  /** The line table of the lexer's initialiser. */
  function LineTable(s: string): (r: seq<Line>)
    ensures forall i :: 0 <= i < |r| ==> LineOk(s, r[i])
    ensures forall i :: 0 <= i < |r| ==> 1 <= r[i].number <= |SplitLines(s)| && SplitLines(s)[r[i].number - 1] == r[i].content
    ensures forall i, j :: 0 <= i < j < |r| ==> r[i].number < r[j].number
  {
    LinesFrom(s, SplitLines(s), 0)
  }

  /** Every non-empty part that occurs in the template gets an entry; `i`
      is its index. */
  lemma {:induction false} LinesFromComplete(s: string, parts: seq<string>, k: nat, m: nat) returns (i: nat)
    requires k <= m < |parts| && parts[m] != [] && FindIn(s, parts[m], 0, |s|).Some?
    ensures i < |LinesFrom(s, parts, k)|
    ensures LinesFrom(s, parts, k)[i].number == m + 1 && LinesFrom(s, parts, k)[i].content == parts[m]
    decreases m - k
  {
    if k < m {
      var j := LinesFromComplete(s, parts, k + 1, m);
      i := LinesFromShift(s, parts, k, j);
    } else {
      LinesFromFound(s, parts, k);
      i := 0;
    }
  }

  /** A non-empty part that is found heads the entries from it on. */
  lemma LinesFromFound(s: string, parts: seq<string>, k: nat)
    requires k < |parts| && parts[k] != [] && FindIn(s, parts[k], 0, |s|).Some?
    ensures |LinesFrom(s, parts, k)| == |LinesFrom(s, parts, k + 1)| + 1
    ensures LinesFrom(s, parts, k)[0].number == k + 1 && LinesFrom(s, parts, k)[0].content == parts[k]
    ensures LinesFrom(s, parts, k)[1..] == LinesFrom(s, parts, k + 1)
  {
  }

  /** Entry `j` from `k + 1` on is entry `i` from `k` on. */
  lemma LinesFromShift(s: string, parts: seq<string>, k: nat, j: nat) returns (i: nat)
    requires k < |parts| && j < |LinesFrom(s, parts, k + 1)|
    ensures i < |LinesFrom(s, parts, k)| && LinesFrom(s, parts, k)[i] == LinesFrom(s, parts, k + 1)[j]
  {
    if parts[k] != [] && FindIn(s, parts[k], 0, |s|).Some? {
      LinesFromFound(s, parts, k);
      i := j + 1;
    } else {
      LinesFromSkipped(s, parts, k);
      i := j;
    }
  }

  /** An empty part, or one that is not found, adds no entry. */
  lemma LinesFromSkipped(s: string, parts: seq<string>, k: nat)
    requires k < |parts| && (parts[k] == [] || FindIn(s, parts[k], 0, |s|).None?)
    ensures LinesFrom(s, parts, k) == LinesFrom(s, parts, k + 1)
  {
  }

  /** A non-empty line of the template is found by a search of the whole
      template. */
  lemma LineFound(s: string, m: nat)
    requires m < |SplitLines(s)| && SplitLines(s)[m] != []
    ensures FindIn(s, SplitLines(s)[m], 0, |s|).Some?
  {
    SplitLinesPartsOccur(s, m);
    var p: nat :| OccursAt(s, SplitLines(s)[m], p);
    FindInWhole(s, SplitLines(s)[m], p);
  }

  /** The line table is complete: every non-empty line of the template has
      an entry carrying its number and its content, so a line holding a
      given position is always there to be found. */
  lemma LineTableComplete(s: string, m: nat)
    requires m < |SplitLines(s)| && SplitLines(s)[m] != []
    ensures exists i ::
      0 <= i < |LineTable(s)| && LineTable(s)[i].number == m + 1 && LineTable(s)[i].content == SplitLines(s)[m]
  {
    LineFound(s, m);
    var i := LinesFromComplete(s, SplitLines(s), 0, m);
    assert LineTable(s) == LinesFrom(s, SplitLines(s), 0);
    assert LineTable(s)[i].number == m + 1;
  }

  function NewLexer(templateName: Option<string>, templateString: string): Lexer
  {
    Lexer(templateName, templateString, LineTable(templateString))
  }

  /** Index of the first line whose range contains `pos`. */
  function FirstLineContaining(lines: seq<Line>, pos: nat): (r: Option<nat>)
    ensures r.Some? ==> r.value < |lines| && Contains(lines[r.value].range, pos)
    ensures r.Some? ==> forall j :: 0 <= j < r.value ==> !Contains(lines[j].range, pos)
    ensures r.None? ==> forall j :: 0 <= j < |lines| ==> !Contains(lines[j].range, pos)
  {
    if lines == [] then None
    else if Contains(lines[0].range, pos) then Some(0)
    else match FirstLineContaining(lines[1..], pos)
      case None => None
      case Some(k) => Some(k + 1)
  }

  /** `rangeLocation(_:)`: the first line containing the range's lower
      bound, with the offset of that bound inside the line, or the empty
      location when no line contains it. Over a line table the location
      points at the very character the range starts at. */
  function RangeLocation(lx: Lexer, range: Range): (loc: ContentLocation)
    ensures (forall j :: 0 <= j < |lx.lines| ==> !Contains(lx.lines[j].range, range.lo)) ==> loc == NoLocation
    ensures (forall j :: 0 <= j < |lx.lines| ==> LineOk(lx.templateString, lx.lines[j])) && loc != NoLocation ==>
      && loc.lineNumber >= 1
      && 0 <= loc.lineOffset < |loc.content|
      && range.lo < |lx.templateString|
      && lx.templateString[range.lo] == loc.content[loc.lineOffset]
    ensures (forall j :: 0 <= j < |lx.lines| ==> LineOk(lx.templateString, lx.lines[j])) ==>
      (loc == NoLocation <==> forall j :: 0 <= j < |lx.lines| ==> !Contains(lx.lines[j].range, range.lo))
    ensures forall k ::
      (0 <= k < |lx.lines| && Contains(lx.lines[k].range, range.lo)
       && forall j :: 0 <= j < k ==> !Contains(lx.lines[j].range, range.lo)) ==>
        loc == ContentLocation(lx.lines[k].content, lx.lines[k].number, range.lo - lx.lines[k].range.lo)
  {
    match FirstLineContaining(lx.lines, range.lo)
    case None => NoLocation
    case Some(k) =>
      var line := lx.lines[k];
      var loc := ContentLocation(line.content, line.number, range.lo - line.range.lo);
      if LineOk(lx.templateString, line) then
        assert lx.templateString[line.range.lo..line.range.hi][range.lo - line.range.lo]
            == lx.templateString[range.lo];
        loc
      else loc
  }

  function MarkerBehaviour(c: char): (b: Behaviour)
    ensures b == Keep <==> c == '+'
    ensures b == Trim <==> c == '-'
  {
    if c in BehaviourMap then BehaviourMap[c] else Unspecified
  }

  /** `behaviour(string:tagLength:)`: the marker just inside the opening
      delimiter and the one just inside the closing delimiter. A string of
      exactly two scalars makes the source read past its end, so it is
      excluded; shorter strings have no markers. */
  function WhitespaceOf(s: string): (w: WhitespaceBehaviour)
    requires |s| != TagLength
    ensures w.leading == Keep <==> |s| > TagLength && s[TagLength] == '+'
    ensures w.leading == Trim <==> |s| > TagLength && s[TagLength] == '-'
    ensures w.trailing == Keep <==> |s| > TagLength && s[|s| - TagLength - 1] == '+'
    ensures w.trailing == Trim <==> |s| > TagLength && s[|s| - TagLength - 1] == '-'
  {
    var left := if TagLength < |s| then s[TagLength] else ' ';
    var right := if TagLength + 1 <= |s| then s[|s| - TagLength - 1] else ' ';
    WhitespaceBehaviour(MarkerBehaviour(left), MarkerBehaviour(right))
  }

  /** `trim(character: " ")` applied to every (non-empty) line. */
  function TrimEach(parts: seq<string>): (r: seq<string>)
    requires forall k :: 0 <= k < |parts| ==> parts[k] != []
    ensures |r| == |parts|
    ensures forall k :: 0 <= k < |r| ==> r[k] == Strings.Trim(parts[k], ' ')
  {
    if parts == [] then [] else [Strings.Trim(parts[0], ' ')] + TrimEach(parts[1..])
  }

  /** The `strip` helper of `createToken`: drop `a` scalars from the front
      and `b` from the back, break the rest into lines, drop the empty ones,
      trim spaces from each and join them with single spaces. Nothing is
      left when the string is not longer than the two delimiters together. */
  function Strip(s: string, a: nat, b: nat): (r: string)
    ensures |s| <= a + b ==> r == []
    ensures '\n' !in r
  {
    if |s| <= a + b then []
    else
      var inner := s[a..|s| - b];
      var lines := DropEmpty(Strings.Split(inner, '\n'));
      var trimmed := TrimEach(lines);
      StripFacts(inner, lines, trimmed);
      Join(trimmed, ' ')
  }

  /** A body on one line is just trimmed of spaces. */
  lemma StripOneLine(s: string, a: nat, b: nat)
    requires |s| > a + b && '\n' !in s[a..|s| - b]
    ensures Strip(s, a, b) == Strings.Trim(s[a..|s| - b], ' ')
  {
    var inner := s[a..|s| - b];
    StripFacts(inner, DropEmpty(Strings.Split(inner, '\n')), TrimEach(DropEmpty(Strings.Split(inner, '\n'))));
  }

  /** A body made of lines: the empty ones are dropped, the others are
      trimmed of spaces and joined with single spaces. */
  lemma StripLines(s: string, a: nat, b: nat, ls: seq<string>)
    requires |s| > a + b && s[a..|s| - b] == Join(ls, '\n')
    requires forall k :: 0 <= k < |ls| ==> '\n' !in ls[k]
    ensures Strip(s, a, b) == Join(TrimEach(DropEmpty(ls)), ' ')
  {
    SplitJoin(ls, '\n');
  }

  /** Spaces before a word that does not end in a space are trimmed. */
  lemma {:induction false} TrimIndented(pad: string, w: string)
    requires forall j :: 0 <= j < |pad| ==> pad[j] == ' '
    requires w != [] && w[0] != ' ' && w[|w| - 1] != ' ' && |pad + w| >= 2
    ensures Strings.Trim(pad + w, ' ') == w
  {
    var s := pad + w;
    assert TrailingRun(s, ' ') == 0;
    LeadingSpaces(pad, w);
    assert s[|pad|..|s|] == w;
  }

  lemma {:induction false} LeadingSpaces(pad: string, w: string)
    requires forall j :: 0 <= j < |pad| ==> pad[j] == ' '
    requires w != [] && w[0] != ' '
    ensures LeadingRun(pad + w, ' ') == |pad|
    decreases |pad|
  {
    if pad == [] {
      assert pad + w == w;
    } else {
      LeadingSpaces(pad[1..], w);
      assert (pad + w)[1..] == pad[1..] + w;
    }
  }

  /** A line of spaces only is left as it is. */
  lemma SpacesKept(s: string)
    requires s != [] && forall j :: 0 <= j < |s| ==> s[j] == ' '
    ensures Strings.Trim(s, ' ') == s
  {
  }

  lemma StripFacts(inner: string, lines: seq<string>, trimmed: seq<string>)
    requires lines == DropEmpty(Strings.Split(inner, '\n'))
    requires trimmed == TrimEach(lines)
    ensures '\n' !in Join(trimmed, ' ')
    ensures '\n' !in inner && inner != [] ==> Join(trimmed, ' ') == Strings.Trim(inner, ' ')
  {
    DropEmptyAvoids(Strings.Split(inner, '\n'), '\n');
    JoinAvoids(trimmed, ' ', '\n');
    if '\n' !in inner && inner != [] {
      assert IndexOf(inner, '\n') == None;
      assert Strings.Split(inner, '\n') == [inner];
      assert DropEmpty([inner]) == DropEmpty([]) + [inner];
    }
  }

  lemma {:induction false} DropEmptyAvoids(parts: seq<string>, ch: char)
    requires forall k :: 0 <= k < |parts| ==> ch !in parts[k]
    ensures forall k :: 0 <= k < |DropEmpty(parts)| ==> ch !in DropEmpty(parts)[k]
  {
    if parts != [] {
      DropEmptyAvoids(parts[..|parts| - 1], ch);
    }
  }

  /** `hasPrefix` of `{` followed by `ch`, stated scalar by scalar. */
  predicate Opens(s: string, ch: char)
  {
    |s| >= 2 && s[0] == StartDelimiter && s[1] == ch
  }

  lemma OpensIsPrefix(s: string, ch: char)
    ensures Opens(s, ch) <==> IsPrefix([StartDelimiter, ch], s)
  {
    if IsPrefix([StartDelimiter, ch], s) {
      assert s[..2][0] == s[0] && s[..2][1] == s[1];
    }
  }

  /** The string `{%` and nothing more, on which `createToken` traps. */
  predicate BareBlockOpening(s: string)
  {
    |s| == 2 && Opens(s, '%')
  }

  predicate IsTagOpening(s: string)
  {
    Opens(s, '{') || Opens(s, '%') || Opens(s, '#')
  }

  /** Where a tag's value is reported: its first occurrence inside the
      tag's range, or the whole range when it does not occur there (as for
      an empty value, which Foundation never finds). */
  function ValueRange(s: string, value: string, range: Range): (r: Range)
    requires range.lo <= range.hi <= |s|
    ensures r == range || (range.lo <= r.lo && r.hi <= range.hi && r.hi == r.lo + |value| && OccursAt(s, value, r.lo))
    ensures value != [] && (exists p :: range.lo <= p && p + |value| <= range.hi && OccursAt(s, value, p)) ==>
      r.hi == r.lo + |value| && OccursAt(s, value, r.lo) && forall p :: range.lo <= p < r.lo ==> !OccursAt(s, value, p)
    ensures value == [] ==> r == range
    ensures (forall p :: range.lo <= p && p + |value| <= range.hi ==> !OccursAt(s, value, p)) ==> r == range
  {
    match FindIn(s, value, range.lo, range.hi)
    case None => range
    case Some(p) => Range(p, p + |value|)
  }

  function Marked(b: Behaviour): nat
  {
    if b != Unspecified then 1 else 0
  }

  /** `createToken(string:at:)`. A string opening with `{{`, `{%` or `{#`
      becomes a variable, block or comment whose contents are the stripped
      inner text (a whitespace marker of a block is stripped with its
      delimiter); anything else is a text token carrying the string as it
      is. Only block tokens carry a whitespace behaviour. */
  function CreateToken(lx: Lexer, s: string, range: Range): (t: Token)
    requires range.lo <= range.hi <= |lx.templateString|
    requires !BareBlockOpening(s)
    ensures t.kind == Variable <==> Opens(s, '{')
    ensures t.kind == Block <==> Opens(s, '%')
    ensures t.kind == Comment <==> Opens(s, '#')
    ensures t.kind == Text <==> !IsTagOpening(s)
    ensures t.whitespace.Some? <==> t.kind == Block
    ensures t.sourceMap.filename == lx.templateName
    ensures t.kind == Text ==> t.contents == s && t.sourceMap.location == RangeLocation(lx, range)
    ensures t.kind != Text ==> '\n' !in t.contents && (|s| <= 2 * TagLength ==> t.contents == [])
    ensures t.kind != Text ==> t.sourceMap.location == RangeLocation(lx, ValueRange(lx.templateString, t.contents, range))
    ensures t.kind == Block ==> t.whitespace == Some(WhitespaceOf(s)) && t.contents == BlockContents(s)
    ensures t.kind == Variable || t.kind == Comment ==> t.contents == Strip(s, TagLength, TagLength)
  {
    if Opens(s, '{') then
      var value := Strip(s, TagLength, TagLength);
      VariableToken(value, ValueSource(lx, value, range))
    else if Opens(s, '%') then
      var value := BlockContents(s);
      BlockToken(value, ValueSource(lx, value, range), WhitespaceOf(s))
    else if Opens(s, '#') then
      var value := Strip(s, TagLength, TagLength);
      CommentToken(value, ValueSource(lx, value, range))
    else
      TextToken(s, SourceMap(lx.templateName, RangeLocation(lx, range)))
  }

  /** A block's contents: a whitespace marker is stripped with its delimiter. */
  function BlockContents(s: string): string
    requires |s| != 2
  {
    var w := WhitespaceOf(s);
    Strip(s, TagLength + Marked(w.leading), TagLength + Marked(w.trailing))
  }

  // ---------------------------------------------------------------------
  // Worked inputs
  // ---------------------------------------------------------------------

  /** A block spread over several indented lines becomes one line:
      `{%` NL `    if name` NL `     and` NL `    name` NL `%}` holds
      `if name and name`. */
  lemma BlockOverLines()
    ensures BlockContents("{%\n    if name\n     and\n    name\n%}") == "if name and name"
  {
    var s := "{%\n    if name\n     and\n    name\n%}";
    var ls := ["", "    if name", "     and", "    name", ""];
    assert Join(TrimEach(DropEmpty(ls)), ' ') == "if name and name" by {
      OverLinesKept(ls);
      OverLinesTrimmed();
      OverLinesJoined();
    }
    OverLinesBody(s, ls);
    BlockUnmarked(s, ls, "if name and name");
  }

  /** A block with no whitespace marker is stripped of its delimiters and
      then cut into lines. */
  lemma BlockUnmarked(s: string, ls: seq<string>, out: string)
    requires |s| > 4 && s[2] != '+' && s[2] != '-' && s[|s| - 3] != '+' && s[|s| - 3] != '-'
    requires s[2..|s| - 2] == Join(ls, '\n') && forall k :: 0 <= k < |ls| ==> '\n' !in ls[k]
    requires Join(TrimEach(DropEmpty(ls)), ' ') == out
    ensures BlockContents(s) == out
  {
    UnmarkedStrip(s);
    StripLines(s, 2, 2, ls);
  }

  lemma UnmarkedStrip(s: string)
    requires |s| > 4 && s[2] != '+' && s[2] != '-' && s[|s| - 3] != '+' && s[|s| - 3] != '-'
    ensures BlockContents(s) == Strip(s, 2, 2)
  {
    var w := WhitespaceOf(s);
    assert w.leading == Unspecified && w.trailing == Unspecified;
  }

  lemma OverLinesBody(s: string, ls: seq<string>)
    requires s == "{%\n    if name\n     and\n    name\n%}"
    requires ls == ["", "    if name", "     and", "    name", ""]
    ensures s[2..|s| - 2] == Join(ls, '\n')
    ensures forall k :: 0 <= k < |ls| ==> '\n' !in ls[k]
    ensures s[2] == '\n' && s[|s| - 3] == '\n'
  {
    var body := "\n    if name\n     and\n    name\n";
    assert forall k :: 0 <= k < |ls| ==> '\n' !in ls[k] by { OverLinesSingle(ls); }
    assert s[2..|s| - 2] == Join(ls, '\n') by {
      OverLinesDelimited();
      InsideDelimiters("{%", body, "%}");
      OverLinesJoin(ls);
    }
    assert s[2] == '\n' && s[|s| - 3] == '\n' by {
      OverLinesDelimited();
      InsideDelimiters("{%", body, "%}");
      OverLinesStep4();
      assert body == "" + ['\n'] + "    if name\n     and\n    name\n";
    }
  }

  lemma OverLinesSingle(ls: seq<string>)
    requires ls == ["", "    if name", "     and", "    name", ""]
    ensures forall k :: 0 <= k < |ls| ==> '\n' !in ls[k]
  {
    assert '\n' !in ls[1] && '\n' !in ls[2] && '\n' !in ls[3];
  }

  lemma OverLinesDelimited()
    ensures "{%\n    if name\n     and\n    name\n%}" == "{%" + "\n    if name\n     and\n    name\n" + "%}"
  {
  }

  lemma InsideDelimiters(x: string, body: string, y: string)
    requires |x| == 2 && |y| == 2
    ensures (x + body + y)[2..|x + body + y| - 2] == body
    ensures body != [] ==> (x + body + y)[2] == body[0] && (x + body + y)[|x + body + y| - 3] == body[|body| - 1]
  {
  }

  lemma JoinCons(p: string, rest: seq<string>, sep: char)
    requires rest != []
    ensures Join([p] + rest, sep) == p + [sep] + Join(rest, sep)
  {
    assert ([p] + rest)[1..] == rest;
  }

  lemma OverLinesJoin(ls: seq<string>)
    requires ls == ["", "    if name", "     and", "    name", ""]
    ensures Join(ls, '\n') == "\n    if name\n     and\n    name\n"
  {
    assert ls == [""] + (["    if name"] + (["     and"] + (["    name"] + [""])));
    assert Join([""], '\n') == "";
    JoinCons("    name", [""], '\n');
    OverLinesStep1();
    JoinCons("     and", ["    name"] + [""], '\n');
    OverLinesStep2();
    JoinCons("    if name", ["     and"] + (["    name"] + [""]), '\n');
    OverLinesStep3();
    JoinCons("", ["    if name"] + (["     and"] + (["    name"] + [""])), '\n');
    OverLinesStep4();
  }

  lemma OverLinesStep1()
    ensures "    name" + ['\n'] + "" == "    name\n"
  {
  }

  lemma OverLinesStep2()
    ensures "     and" + ['\n'] + "    name\n" == "     and\n    name\n"
  {
  }

  lemma OverLinesStep3()
    ensures "    if name" + ['\n'] + "     and\n    name\n" == "    if name\n     and\n    name\n"
  {
  }

  lemma OverLinesStep4()
    ensures "" + ['\n'] + "    if name\n     and\n    name\n" == "\n    if name\n     and\n    name\n"
  {
    assert "" + ['\n'] == "\n";
    assert "\n" + "    if name\n     and\n    name\n" == "\n    if name\n     and\n    name\n";
  }

  lemma OverLinesKept(ls: seq<string>)
    requires ls == ["", "    if name", "     and", "    name", ""]
    ensures DropEmpty(ls) == ["    if name", "     and", "    name"]
  {
    assert ls[..1] == [""] && DropEmpty(ls[..1]) == [];
    assert ls[..2][..1] == ls[..1];
    assert DropEmpty(ls[..2]) == ["    if name"];
    assert ls[..3][..2] == ls[..2];
    assert DropEmpty(ls[..3]) == ["    if name", "     and"];
    assert ls[..4][..3] == ls[..3];
    assert DropEmpty(ls[..4]) == ["    if name", "     and", "    name"];
    assert ls[..5] == ls && ls[..5][..4] == ls[..4];
  }

  lemma OverLinesTrimmed()
    ensures TrimEach(["    if name", "     and", "    name"]) == ["if name", "and", "name"]
  {
    TrimmedIf();
    TrimmedAnd();
    TrimmedName();
    TrimEachThree("    if name", "     and", "    name", "if name", "and", "name");
  }

  lemma TrimEachThree(x: string, y: string, z: string, a: string, b: string, c: string)
    requires x != [] && y != [] && z != []
    requires Strings.Trim(x, ' ') == a && Strings.Trim(y, ' ') == b && Strings.Trim(z, ' ') == c
    ensures TrimEach([x, y, z]) == [a, b, c]
  {
    var r := TrimEach([x, y, z]);
    assert r[0] == a && r[1] == b && r[2] == c;
  }

  lemma TrimmedIf()
    ensures Strings.Trim("    if name", ' ') == "if name"
  {
    assert "    " + "if name" == "    if name";
    TrimIndented("    ", "if name");
  }

  lemma TrimmedAnd()
    ensures Strings.Trim("     and", ' ') == "and"
  {
    assert "     " + "and" == "     and";
    TrimIndented("     ", "and");
  }

  lemma TrimmedName()
    ensures Strings.Trim("    name", ' ') == "name"
  {
    assert "    " + "name" == "    name";
    TrimIndented("    ", "name");
  }

  lemma OverLinesJoined()
    ensures Join(["if name", "and", "name"], ' ') == "if name and name"
  {
    var ps := ["if name", "and", "name"];
    assert Join(ps[2..], ' ') == "name";
    assert Join(ps[1..], ' ') == "and" + " " + "name";
    assert Join(ps, ' ') == "if name" + " " + "and name";
  }

  /** An empty line is dropped and a line holding only spaces survives
      untrimmed: `{% a` NL NL three spaces NL ` b%}` holds `a`, a space, the
      three spaces, a space and `b`. */
  lemma BlockSpacesLine()
    ensures BlockContents("{% a\n\n   \n b%}") == "a     b"
  {
    var s := "{% a\n\n   \n b%}";
    var ls := [" a", "", "   ", " b"];
    assert Join(TrimEach(DropEmpty(ls)), ' ') == "a     b" by {
      SpacesLineDrop(ls);
      SpacesLineTrimmed();
      SpacesLineJoined();
    }
    SpacesLineBody(s, ls);
    BlockUnmarked(s, ls, "a     b");
  }

  lemma SpacesLineBody(s: string, ls: seq<string>)
    requires s == "{% a\n\n   \n b%}" && ls == [" a", "", "   ", " b"]
    ensures s[2..|s| - 2] == Join(ls, '\n')
    ensures forall k :: 0 <= k < |ls| ==> '\n' !in ls[k]
    ensures s[2] == ' ' && s[|s| - 3] == 'b'
  {
    var body := " a\n\n   \n b";
    assert forall k :: 0 <= k < |ls| ==> '\n' !in ls[k] by { SpacesLineSingle(ls); }
    assert s[2..|s| - 2] == Join(ls, '\n') by {
      SpacesLineDelimited();
      InsideDelimiters("{%", body, "%}");
      SpacesLineJoin(ls);
    }
    assert s[2] == ' ' && s[|s| - 3] == 'b' by {
      SpacesLineDelimited();
      InsideDelimiters("{%", body, "%}");
    }
  }

  lemma SpacesLineSingle(ls: seq<string>)
    requires ls == [" a", "", "   ", " b"]
    ensures forall k :: 0 <= k < |ls| ==> '\n' !in ls[k]
  {
    assert '\n' !in ls[0] && '\n' !in ls[2] && '\n' !in ls[3];
  }

  lemma SpacesLineDelimited()
    ensures "{% a\n\n   \n b%}" == "{%" + " a\n\n   \n b" + "%}"
  {
  }

  lemma SpacesLineJoin(ls: seq<string>)
    requires ls == [" a", "", "   ", " b"]
    ensures Join(ls, '\n') == " a\n\n   \n b"
  {
    assert ls == [" a"] + ([""] + (["   "] + [" b"]));
    JoinCons("   ", [" b"], '\n');
    assert "   " + ['\n'] + " b" == "   \n b";
    JoinCons("", ["   "] + [" b"], '\n');
    assert "" + ['\n'] + "   \n b" == "\n   \n b";
    JoinCons(" a", [""] + (["   "] + [" b"]), '\n');
    assert " a" + ['\n'] + "\n   \n b" == " a\n\n   \n b";
  }

  lemma SpacesLineDrop(ls: seq<string>)
    requires ls == [" a", "", "   ", " b"]
    ensures DropEmpty(ls) == [" a", "   ", " b"]
  {
    assert ls[..1] == [" a"] && ls[..1][..0] == [];
    assert DropEmpty(ls[..1]) == [" a"];
    assert ls[..2][..1] == ls[..1];
    assert DropEmpty(ls[..2]) == [" a"];
    assert ls[..3][..2] == ls[..2];
    assert DropEmpty(ls[..3]) == [" a", "   "];
    assert ls[..4] == ls && ls[..4][..3] == ls[..3];
  }

  lemma SpacesLineTrimmed()
    ensures TrimEach([" a", "   ", " b"]) == ["a", "   ", "b"]
  {
    assert Strings.Trim(" a", ' ') == "a" by {
      assert " " + "a" == " a";
      TrimIndented(" ", "a");
    }
    assert Strings.Trim(" b", ' ') == "b" by {
      assert " " + "b" == " b";
      TrimIndented(" ", "b");
    }
    SpacesKept("   ");
    TrimEachThree(" a", "   ", " b", "a", "   ", "b");
  }

  lemma SpacesLineJoined()
    ensures Join(["a", "   ", "b"], ' ') == "a     b"
  {
    var ps := ["a", "   ", "b"];
    assert Join(ps[2..], ' ') == "b";
    assert Join(ps[1..], ' ') == "   " + " " + "b";
    assert Join(ps, ' ') == "a" + " " + "    b";
  }

  /** The source map of a tag: the location of its value inside its range. */
  function ValueSource(lx: Lexer, value: string, range: Range): SourceMap
    requires range.lo <= range.hi <= |lx.templateString|
  {
    SourceMap(lx.templateName, RangeLocation(lx, ValueRange(lx.templateString, value, range)))
  }

  /** A piece of the template handed to `createToken`, with its range. */
  datatype Slice = Slice(raw: string, range: Range)

  /** The pieces one turn of the tokenizing loop produces: the non-empty
      text before the next tag opening and the tag up to its closing, or,
      when the tag never closes, that text and an empty piece; when no tag
      opens, the rest of the content. `next` is the scanner for the following
      turn, absent when the loop ends. */
  datatype Turn = Turn(pieces: seq<Slice>, next: Option<Scanner>)

  predicate PieceOk(original: string, p: Slice)
  {
    p.range.lo <= p.range.hi <= |original| && !BareBlockOpening(p.raw)
  }

  function LoopTurn(sc: Scanner): (t: Turn)
    requires Valid(sc) && !IsEmpty(sc)
    ensures forall k :: 0 <= k < |t.pieces| ==> PieceOk(sc.original, t.pieces[k])
    ensures t.next.Some? ==> Valid(t.next.value) && t.next.value.original == sc.original
    ensures t.next.Some? ==> |t.next.value.content| < |sc.content|
  {
    var (sc1, start) := ScanForTokenStart(sc, TokenChars);
    match start
    case None =>
      NoOpeningNoBlock(sc.content);
      Turn([Slice(sc1.content, sc1.range)], None)
    case Some((c, text)) =>
      var pre := if text != [] then [Slice(text, sc1.range)] else [];
      assert text != [] ==> PieceOk(sc.original, Slice(text, sc1.range)) by {
        if BareBlockOpening(text) { assert StartsAt(sc.content, TokenChars, 1); }
      }
      TagTurn(sc1, c, pre)
  }

  /** The second half of a turn: the tag opening at the start of `sc`'s
      content is scanned up to its closing, after the pieces `pre`. */
  function TagTurn(sc: Scanner, c: char, pre: seq<Slice>): (t: Turn)
    requires Valid(sc) && |sc.content| >= 2
    requires sc.content[0] == StartDelimiter && sc.content[1] == c && c in TokenChars
    requires forall k :: 0 <= k < |pre| ==> PieceOk(sc.original, pre[k])
    ensures forall k :: 0 <= k < |t.pieces| ==> PieceOk(sc.original, t.pieces[k])
    ensures t.next.Some? ==> Valid(t.next.value) && t.next.value.original == sc.original
    ensures t.next.Some? ==> |t.next.value.content| < |sc.content|
  {
    var (sc2, result) := ScanForTokenEnd(sc, TokenCharMap[c]);
    if result == [] then
      PiecesOk(sc.original, pre, Slice([], sc2.range));
      Turn(pre + [Slice([], sc2.range)], None)
    else
      TagLongEnough(sc.content, c, result);
      PiecesOk(sc.original, pre, Slice(result, sc2.range));
      Turn(pre + [Slice(result, sc2.range)], Some(sc2))
  }

  lemma PiecesOk(original: string, pre: seq<Slice>, last: Slice)
    requires forall k :: 0 <= k < |pre| ==> PieceOk(original, pre[k])
    requires PieceOk(original, last)
    ensures forall k :: 0 <= k < |pre + [last]| ==> PieceOk(original, (pre + [last])[k])
  {
  }

  /** All pieces of the tokenizing loop, from the given scanner on. */
  function Slices(sc: Scanner): (r: seq<Slice>)
    requires Valid(sc)
    ensures forall k :: 0 <= k < |r| ==> PieceOk(sc.original, r[k])
    decreases |sc.content|
  {
    if IsEmpty(sc) then []
    else
      var t := LoopTurn(sc);
      match t.next
      case None => t.pieces
      case Some(sc2) => t.pieces + Slices(sc2)
  }

  lemma NoOpeningNoBlock(s: string)
    requires forall j :: 1 <= j < |s| ==> !StartsAt(s, TokenChars, j)
    ensures !BareBlockOpening(s)
  {
    if BareBlockOpening(s) { assert StartsAt(s, TokenChars, 1); }
  }

  /** A closed tag has at least three scalars: `}` never closes at index 1. */
  lemma TagLongEnough(content: string, c: char, result: string)
    requires |content| >= 2 && content[0] == StartDelimiter && content[1] == c && c in TokenChars
    requires |result| >= 2 && EndsAt(result, TokenCharMap[c], |result| - 1)
    requires IsPrefix(result, content)
    ensures |result| >= 3
  {
  }

  /** `tokenize()`: one token per slice, made by `createToken`. */
  function Tokenize(lx: Lexer): (r: seq<Token>)
    ensures |r| == |Slices(Init(lx.templateString))|
  {
    var sl := Slices(Init(lx.templateString));
    seq(|sl|, k requires 0 <= k < |sl| => CreateToken(lx, sl[k].raw, sl[k].range))
  }
}

=== FILE: lexer_properties.dfy ===
/** Properties of the tokenizing loop: the pieces it cuts tile the
    template (up to a tag that never closes), each piece is either a whole
    tag or text with no tag opening in it, and the token made from each
    piece has the kind the piece's opening announces. */
module LexerProperties {
  import opened Wrappers
  import opened Strings
  import opened Tokens
  import opened Scanning
  import opened Lexing

  /** The raw text of each piece. */
  function Raws(sl: seq<Slice>): seq<string>
  {
    seq(|sl|, k requires 0 <= k < |sl| => sl[k].raw)
  }

  lemma RawsAppend(a: seq<Slice>, b: seq<Slice>)
    ensures Raws(a + b) == Raws(a) + Raws(b)
  {
    forall k | 0 <= k < |a + b|
      ensures Raws(a + b)[k] == (Raws(a) + Raws(b))[k]
    {
      if k < |a| {
        assert (a + b)[k] == a[k];
      } else {
        assert (a + b)[k] == b[k - |a|];
      }
    }
  }

  /** A whole tag: `{` and an opening character, then everything up to the
      first closing pair that follows. */
  predicate IsTag(raw: string)
  {
    && |raw| >= 3 && raw[0] == StartDelimiter && raw[1] in TokenChars
    && EndsAt(raw, TokenCharMap[raw[1]], |raw| - 1)
    && forall j :: 1 <= j < |raw| - 1 ==> !EndsAt(raw, TokenCharMap[raw[1]], j)
  }

  /** A tag opening that never closes: `{` and an opening character with
      no closing pair anywhere after it. */
  predicate UnclosedTag(rest: string)
  {
    && |rest| >= 2 && rest[0] == StartDelimiter && rest[1] in TokenChars
    && forall j :: 1 <= j < |rest| ==> !EndsAt(rest, TokenCharMap[rest[1]], j)
  }

  /** Text with no tag opening in it. */
  predicate IsText(raw: string)
  {
    forall j :: 1 <= j < |raw| ==> !StartsAt(raw, TokenChars, j)
  }

  /** A piece is a tag or text, and sits at its range's lower bound. */
  predicate Shaped(original: string, p: Slice)
  {
    (IsTag(p.raw) || IsText(p.raw)) && OccursAt(original, p.raw, p.range.lo)
  }

  /** The facts every turn of the loop establishes. */
  predicate TurnOk(sc: Scanner, t: Turn)
  {
    && t.pieces != []
    && (forall k :: 0 <= k < |t.pieces| ==> Shaped(sc.original, t.pieces[k]))
    && (forall k :: 0 <= k < |t.pieces| - 1 ==> t.pieces[k].raw != [])
    && IsPrefix(Concat(Raws(t.pieces)), sc.content)
    && (t.next.None? ==>
         || Concat(Raws(t.pieces)) == sc.content
         || (t.pieces[|t.pieces| - 1].raw == [] && UnclosedTag(sc.content[|Concat(Raws(t.pieces))|..])))
    && (t.next.Some? ==>
         && t.pieces[|t.pieces| - 1].raw != []
         && Concat(Raws(t.pieces)) + t.next.value.content == sc.content)
  }

  lemma TextPrefix(content: string, text: string)
    requires IsPrefix(text, content)
    requires forall j :: 1 <= j <= |text| ==> !StartsAt(content, TokenChars, j)
    ensures IsText(text)
  {
    forall j | 1 <= j < |text|
      ensures !StartsAt(text, TokenChars, j)
    {
      assert !StartsAt(content, TokenChars, j);
      assert text[j - 1] == content[j - 1] && text[j] == content[j];
    }
  }

  lemma TagPrefix(content: string, c: char, result: string)
    requires |content| >= 2 && content[0] == StartDelimiter && content[1] == c && c in TokenChars
    requires |result| >= 3 && IsPrefix(result, content)
    requires EndsAt(result, TokenCharMap[c], |result| - 1)
    requires forall j :: 1 <= j < |result| - 1 ==> !EndsAt(content, TokenCharMap[c], j)
    ensures IsTag(result)
  {
    assert result[0] == content[0] && result[1] == content[1];
    forall j | 1 <= j < |result| - 1
      ensures !EndsAt(result, TokenCharMap[c], j)
    {
      assert !EndsAt(content, TokenCharMap[c], j);
      assert result[j - 1] == content[j - 1] && result[j] == content[j];
    }
  }

  lemma OccursInOriginal(sc: Scanner, d: nat, raw: string)
    requires Valid(sc) && d <= |sc.content| && IsPrefix(raw, sc.content[d..])
    ensures OccursAt(sc.original, raw, sc.range.hi + d)
  {
    assert sc.original[sc.range.hi + d..sc.range.hi + d + |raw|] == sc.content[d..][..|raw|];
  }

  lemma ConcatOne(a: string)
    ensures Concat([a]) == a
  {
    assert [a][..0] == [];
  }

  lemma ConcatTwo(a: string, b: string)
    ensures Concat([a, b]) == a + b
  {
    assert [a, b][..1] == [a];
    ConcatOne(a);
  }

  /** No tag opens: the single piece is the whole content. */
  lemma TurnNoOpening(sc: Scanner)
    requires Valid(sc) && sc.content != []
    requires ScanForTokenStart(sc, TokenChars).1.None?
    ensures TurnOk(sc, LoopTurn(sc))
  {
    var t := LoopTurn(sc);
    assert t.pieces == [Slice(sc.content, Range(sc.range.hi, sc.range.hi))];
    assert Raws(t.pieces) == [sc.content];
    ConcatOne(sc.content);
    OccursInOriginal(sc, 0, sc.content);
  }

  /** A tag opens: the text before it (when there is any), then the tag or,
      when it never closes, an empty piece. */
  lemma TurnOpening(sc: Scanner)
    requires Valid(sc) && sc.content != []
    requires ScanForTokenStart(sc, TokenChars).1.Some?
    ensures TurnOk(sc, LoopTurn(sc))
  {
    var (sc1, start) := ScanForTokenStart(sc, TokenChars);
    var (c, text) := start.value;
    var (sc2, result) := ScanForTokenEnd(sc1, TokenCharMap[c]);
    if result == [] {
      TurnOpeningUnclosed(sc, sc1, c, text, sc2);
    } else {
      TurnOpeningClosed(sc, sc1, c, text, sc2, result);
    }
  }

  lemma TextBeforeOpening(sc: Scanner, sc1: Scanner, c: char, text: string)
    requires Valid(sc) && sc.content != []
    requires ScanForTokenStart(sc, TokenChars) == (sc1, Some((c, text)))
    ensures IsPrefix(text, sc.content) && IsText(text)
    ensures text != [] ==> OccursAt(sc.original, text, sc.range.hi)
    ensures sc1.range == Range(sc.range.hi, sc.range.hi + |text|) && Valid(sc1)
    ensures sc1.content == sc.content[|text|..] && sc1.original == sc.original
  {
    assert IsPrefix(text, sc.content);
    TextPrefix(sc.content, text);
    if text != [] {
      OccursInOriginal(sc, 0, text);
    }
  }

  lemma TurnOpeningUnclosed(sc: Scanner, sc1: Scanner, c: char, text: string, sc2: Scanner)
    requires Valid(sc) && sc.content != []
    requires ScanForTokenStart(sc, TokenChars) == (sc1, Some((c, text)))
    requires c in TokenCharMap
    requires ScanForTokenEnd(sc1, TokenCharMap[c]) == (sc2, [])
    ensures TurnOk(sc, LoopTurn(sc))
  {
    TextBeforeOpening(sc, sc1, c, text);
    assert UnclosedTag(sc.content[|text|..]);
    var pre := if text != [] then [Slice(text, sc1.range)] else [];
    assert LoopTurn(sc) == Turn(pre + [Slice([], sc2.range)], None);
    UnclosedTurn(sc, text, pre, sc2.range, LoopTurn(sc));
  }

  lemma TurnOpeningClosed(sc: Scanner, sc1: Scanner, c: char, text: string, sc2: Scanner, result: string)
    requires Valid(sc) && sc.content != []
    requires ScanForTokenStart(sc, TokenChars) == (sc1, Some((c, text)))
    requires c in TokenCharMap
    requires ScanForTokenEnd(sc1, TokenCharMap[c]) == (sc2, result) && result != []
    ensures TurnOk(sc, LoopTurn(sc))
  {
    TextBeforeOpening(sc, sc1, c, text);
    ClosedTag(sc1, c, sc2, result);
    var pre := if text != [] then [Slice(text, sc1.range)] else [];
    assert LoopTurn(sc) == Turn(pre + [Slice(result, sc2.range)], Some(sc2));
    PrefixThenRest(sc.content, text, result + sc2.content);
    ClosedTurn(sc, text, pre, result, sc2, LoopTurn(sc));
  }

  /** What a closed tag gives: a whole tag at its range, followed by the
      new content. */
  lemma ClosedTag(sc1: Scanner, c: char, sc2: Scanner, result: string)
    requires Valid(sc1) && c in TokenChars
    requires |sc1.content| >= 2 && sc1.content[0] == StartDelimiter && sc1.content[1] == c
    requires ScanForTokenEnd(sc1, TokenCharMap[c]) == (sc2, result) && result != []
    ensures IsTag(result) && OccursAt(sc1.original, result, sc2.range.lo)
    ensures result + sc2.content == sc1.content
  {
    TagLongEnough(sc1.content, c, result);
    TagPrefix(sc1.content, c, result);
  }

  lemma PrefixThenRest(s: string, a: string, b: string)
    requires IsPrefix(a, s) && b == s[|a|..]
    ensures a + b == s
  {
  }

  lemma UnclosedTurn(sc: Scanner, text: string, pre: seq<Slice>, rg: Range, t: Turn)
    requires IsPrefix(text, sc.content) && IsText(text) && UnclosedTag(sc.content[|text|..])
    requires pre == (if text != [] then [Slice(text, Range(sc.range.hi, sc.range.hi + |text|))] else [])
    requires text != [] ==> OccursAt(sc.original, text, sc.range.hi)
    requires rg.lo <= |sc.original|
    requires t == Turn(pre + [Slice([], rg)], None)
    ensures TurnOk(sc, t)
  {
    if text != [] {
      assert Raws(t.pieces) == [text, []];
      ConcatTwo(text, []);
    } else {
      assert Raws(t.pieces) == [[]];
      ConcatOne([]);
    }
    assert OccursAt(sc.original, [], rg.lo);
  }

  lemma ClosedTurn(sc: Scanner, text: string, pre: seq<Slice>, result: string, sc2: Scanner, t: Turn)
    requires text + (result + sc2.content) == sc.content
    requires IsText(text) && IsTag(result)
    requires pre == (if text != [] then [Slice(text, Range(sc.range.hi, sc.range.hi + |text|))] else [])
    requires text != [] ==> OccursAt(sc.original, text, sc.range.hi)
    requires OccursAt(sc.original, result, sc2.range.lo)
    requires t == Turn(pre + [Slice(result, sc2.range)], Some(sc2))
    ensures TurnOk(sc, t)
  {
    if text != [] {
      ClosedAfterText(sc, text, result, sc2, t);
    } else {
      ClosedAlone(sc, result, sc2, t);
    }
  }

  lemma ClosedAfterText(sc: Scanner, text: string, result: string, sc2: Scanner, t: Turn)
    requires text + (result + sc2.content) == sc.content
    requires IsText(text) && text != [] && IsTag(result)
    requires OccursAt(sc.original, text, sc.range.hi)
    requires OccursAt(sc.original, result, sc2.range.lo)
    requires t == Turn([Slice(text, Range(sc.range.hi, sc.range.hi + |text|)), Slice(result, sc2.range)], Some(sc2))
    ensures TurnOk(sc, t)
  {
    assert Raws(t.pieces) == [text, result];
    ConcatTwo(text, result);
    assert text + result + sc2.content == sc.content;
  }

  lemma ClosedAlone(sc: Scanner, result: string, sc2: Scanner, t: Turn)
    requires result + sc2.content == sc.content
    requires IsTag(result)
    requires OccursAt(sc.original, result, sc2.range.lo)
    requires t == Turn([Slice(result, sc2.range)], Some(sc2))
    ensures TurnOk(sc, t)
  {
    OnePiece(sc.original, Slice(result, sc2.range));
    PrefixOfAppend(result, sc2.content);
  }

  lemma OnePiece(original: string, p: Slice)
    requires Shaped(original, p)
    ensures Concat(Raws([p])) == p.raw
    ensures forall k :: 0 <= k < |[p]| ==> Shaped(original, [p][k])
  {
    assert Raws([p]) == [p.raw];
    ConcatOne(p.raw);
  }

  lemma PrefixOfAppend(a: string, b: string)
    ensures IsPrefix(a, a + b)
  {
    assert (a + b)[..|a|] == a;
  }

  lemma TurnFacts(sc: Scanner)
    requires Valid(sc) && sc.content != []
    ensures TurnOk(sc, LoopTurn(sc))
  {
    if ScanForTokenStart(sc, TokenChars).1.None? {
      TurnNoOpening(sc);
    } else {
      TurnOpening(sc);
    }
  }

  /** The pieces of the loop: each is a tag or text at its range, only the
      last may be empty, and together they spell the content to scan, except
      that a tag that never closes is dropped with everything after it (the
      last piece is then empty). */
  predicate Tiled(sc: Scanner, r: seq<Slice>)
  {
    && (forall k :: 0 <= k < |r| ==> Shaped(sc.original, r[k]))
    && (forall k :: 0 <= k < |r| - 1 ==> r[k].raw != [])
    && IsPrefix(Concat(Raws(r)), sc.content)
    && (|| Concat(Raws(r)) == sc.content
        || (r != [] && r[|r| - 1].raw == [] && UnclosedTag(sc.content[|Concat(Raws(r))|..])))
  }

  lemma {:induction false} SlicesTile(sc: Scanner)
    requires Valid(sc)
    ensures Tiled(sc, Slices(sc))
    decreases |sc.content|
  {
    if sc.content == [] {
      assert Slices(sc) == [];
    } else {
      var t := LoopTurn(sc);
      TurnFacts(sc);
      match t.next
      case None =>
        assert Slices(sc) == t.pieces;
        LastTurn(sc, t);
      case Some(sc2) =>
        SlicesTile(sc2);
        SlicesNonEmpty(sc2);
        var rest := Slices(sc2);
        assert Slices(sc) == t.pieces + rest;
        assert t == Turn(t.pieces, Some(sc2));
        JoinTurn(sc, t.pieces, sc2, rest);
    }
  }

  /** Content left to scan yields at least one piece. */
  lemma SlicesNonEmpty(sc: Scanner)
    requires Valid(sc)
    ensures Slices(sc) == [] ==> sc.content == []
  {
    if sc.content != [] {
      TurnFacts(sc);
    }
  }

  lemma LastTurn(sc: Scanner, t: Turn)
    requires TurnOk(sc, t) && t.next.None?
    ensures Tiled(sc, t.pieces)
  {
  }

  lemma JoinTurn(sc: Scanner, pieces: seq<Slice>, sc2: Scanner, rest: seq<Slice>)
    requires TurnOk(sc, Turn(pieces, Some(sc2)))
    requires sc2.original == sc.original
    requires Tiled(sc2, rest)
    requires rest == [] ==> sc2.content == []
    ensures Tiled(sc, pieces + rest)
  {
    TurnPiecesNonEmpty(pieces);
    JoinNonEmpty(pieces, rest);
    JoinShaped(sc.original, pieces, rest);
    JoinConcat(sc.content, sc2.content, pieces, rest);
  }

  /** The pieces of a turn followed by a tiling of what the turn left
      spell a prefix of the content, all of it unless the last piece is
      empty. */
  lemma JoinConcat(content: string, content2: string, pieces: seq<Slice>, rest: seq<Slice>)
    requires Concat(Raws(pieces)) + content2 == content
    requires IsPrefix(Concat(Raws(rest)), content2)
    requires
      || Concat(Raws(rest)) == content2
      || (rest != [] && rest[|rest| - 1].raw == [] && UnclosedTag(content2[|Concat(Raws(rest))|..]))
    requires rest == [] ==> content2 == []
    ensures IsPrefix(Concat(Raws(pieces + rest)), content)
    ensures
      || Concat(Raws(pieces + rest)) == content
      || ((pieces + rest)[|pieces + rest| - 1].raw == [] && UnclosedTag(content[|Concat(Raws(pieces + rest))|..]))
  {
    var r := pieces + rest;
    RawsAppend(pieces, rest);
    ConcatAppend(Raws(pieces), Raws(rest));
    PrefixAfter(Concat(Raws(pieces)), Concat(Raws(rest)), content2);
    if rest != [] {
      assert r[|r| - 1] == rest[|rest| - 1];
    }
  }

  /** After a common prefix `a`, a prefix `b` of `c` leaves what it left of
      `c`. */
  lemma PrefixAfter(a: string, b: string, c: string)
    requires IsPrefix(b, c)
    ensures IsPrefix(a + b, a + c)
    ensures (a + c)[|a + b|..] == c[|b|..]
  {
    assert (a + c)[..|a + b|] == a + c[..|b|];
  }

  /** A turn that continues ends with a non-empty piece, so none is empty. */
  lemma TurnPiecesNonEmpty(pieces: seq<Slice>)
    requires pieces != [] && pieces[|pieces| - 1].raw != []
    requires forall k :: 0 <= k < |pieces| - 1 ==> pieces[k].raw != []
    ensures forall k :: 0 <= k < |pieces| ==> pieces[k].raw != []
  {
  }

  lemma JoinNonEmpty(pieces: seq<Slice>, rest: seq<Slice>)
    requires forall k :: 0 <= k < |pieces| ==> pieces[k].raw != []
    requires forall k :: 0 <= k < |rest| - 1 ==> rest[k].raw != []
    ensures forall k :: 0 <= k < |pieces + rest| - 1 ==> (pieces + rest)[k].raw != []
  {
    forall k | 0 <= k < |pieces + rest| - 1
      ensures (pieces + rest)[k].raw != []
    {
      if k < |pieces| {
        assert (pieces + rest)[k] == pieces[k];
      } else {
        assert (pieces + rest)[k] == rest[k - |pieces|];
      }
    }
  }

  lemma JoinShaped(original: string, pieces: seq<Slice>, rest: seq<Slice>)
    requires forall k :: 0 <= k < |pieces| ==> Shaped(original, pieces[k])
    requires forall k :: 0 <= k < |rest| ==> Shaped(original, rest[k])
    ensures forall k :: 0 <= k < |pieces + rest| ==> Shaped(original, (pieces + rest)[k])
  {
    forall k | 0 <= k < |pieces + rest|
      ensures Shaped(original, (pieces + rest)[k])
    {
      if k < |pieces| {
        assert (pieces + rest)[k] == pieces[k];
      } else {
        assert (pieces + rest)[k] == rest[k - |pieces|];
      }
    }
  }

  // ---------------------------------------------------------------------
  // Where the pieces sit
  // ---------------------------------------------------------------------

  /** Piece `k` of `r` at `pos`, the position right after the pieces before
      it (counted from `start`). A tag, and a text followed by a tag, cover
      their own scalars. A text that runs to the end of the content gets the
      empty range at its start, since the scanner collapsed its range. The
      empty piece of a tag that never closes keeps the range of the text
      before it in its turn (empty when there is none): it ends where the
      unclosed tag opens. */
  predicate PlacedAt(start: nat, r: seq<Slice>, k: nat)
    requires k < |r|
  {
    var pos := start + |Concat(Raws(r[..k]))|;
    if r[k].raw == [] then
      && r[k].range.hi == pos
      && r[k].range.lo + (if k > 0 && IsText(r[k - 1].raw) then |r[k - 1].raw| else 0) == pos
    else if IsTag(r[k].raw) || k < |r| - 1 then
      r[k].range == Range(pos, pos + |r[k].raw|)
    else
      r[k].range == Range(pos, pos)
  }

  predicate Placed(start: nat, r: seq<Slice>)
  {
    forall k :: 0 <= k < |r| ==> PlacedAt(start, r, k)
  }

  /** A turn places its pieces from the scanner's position on; a turn that
      goes on ends with a tag, and the next scanner starts right after it. */
  predicate TurnPlaced(sc: Scanner, t: Turn)
  {
    && Placed(sc.range.hi, t.pieces)
    && (t.next.Some? ==>
         && t.pieces != [] && IsTag(t.pieces[|t.pieces| - 1].raw)
         && t.next.value.range.hi == sc.range.hi + |Concat(Raws(t.pieces))|)
  }

  lemma TagNotText(raw: string)
    requires IsTag(raw)
    ensures !IsText(raw)
  {
    assert StartsAt(raw, TokenChars, 1);
  }

  lemma ConcatPrefixOne(p: Slice)
    ensures Concat(Raws([p][..0])) == [] && Concat(Raws([p])) == p.raw
  {
    assert [p][..0] == [];
    assert Raws([p]) == [p.raw];
    ConcatOne(p.raw);
  }

  lemma ConcatPrefixTwo(p: Slice, q: Slice)
    ensures Concat(Raws([p, q][..0])) == [] && Concat(Raws([p, q][..1])) == p.raw
    ensures Concat(Raws([p, q])) == p.raw + q.raw
  {
    assert [p, q][..0] == [];
    assert [p, q][..1] == [p];
    ConcatPrefixOne(p);
    assert Raws([p, q]) == [p.raw, q.raw];
    ConcatTwo(p.raw, q.raw);
  }

  /** No tag opens: the whole content sits at the empty range where the
      scan started. */
  lemma PlacedNoOpening(sc: Scanner)
    requires Valid(sc) && sc.content != []
    requires ScanForTokenStart(sc, TokenChars).1.None?
    ensures TurnPlaced(sc, LoopTurn(sc))
  {
    var t := LoopTurn(sc);
    var p := Slice(sc.content, Range(sc.range.hi, sc.range.hi));
    assert t.pieces == [p];
    ConcatPrefixOne(p);
    if IsTag(sc.content) {
      assert StartsAt(sc.content, TokenChars, 1);
    }
    assert PlacedAt(sc.range.hi, [p], 0);
  }

  /** A tag opens after `text`: the text at its own scalars, then the tag
      there or, when it never closes, an empty piece ending where it opens. */
  lemma PlacedOpening(sc: Scanner)
    requires Valid(sc) && sc.content != []
    requires ScanForTokenStart(sc, TokenChars).1.Some?
    ensures TurnPlaced(sc, LoopTurn(sc))
  {
    var (sc1, start) := ScanForTokenStart(sc, TokenChars);
    var (c, text) := start.value;
    var (sc2, result) := ScanForTokenEnd(sc1, TokenCharMap[c]);
    if result == [] {
      PlacedUnclosed(sc, sc1, c, text, sc2);
    } else {
      PlacedClosed(sc, sc1, c, text, sc2, result);
    }
  }

  lemma PlacedUnclosed(sc: Scanner, sc1: Scanner, c: char, text: string, sc2: Scanner)
    requires Valid(sc) && sc.content != []
    requires ScanForTokenStart(sc, TokenChars) == (sc1, Some((c, text)))
    requires c in TokenCharMap
    requires ScanForTokenEnd(sc1, TokenCharMap[c]) == (sc2, [])
    ensures TurnPlaced(sc, LoopTurn(sc))
  {
    TextBeforeOpening(sc, sc1, c, text);
    var pre := if text != [] then [Slice(text, sc1.range)] else [];
    assert LoopTurn(sc) == Turn(pre + [Slice([], sc2.range)], None);
    PlacedTurn(sc.range.hi, text, Slice([], sc2.range));
  }

  lemma PlacedClosed(sc: Scanner, sc1: Scanner, c: char, text: string, sc2: Scanner, result: string)
    requires Valid(sc) && sc.content != []
    requires ScanForTokenStart(sc, TokenChars) == (sc1, Some((c, text)))
    requires c in TokenCharMap
    requires ScanForTokenEnd(sc1, TokenCharMap[c]) == (sc2, result) && result != []
    ensures TurnPlaced(sc, LoopTurn(sc))
  {
    TextBeforeOpening(sc, sc1, c, text);
    ClosedTag(sc1, c, sc2, result);
    var pre := if text != [] then [Slice(text, sc1.range)] else [];
    assert LoopTurn(sc) == Turn(pre + [Slice(result, sc2.range)], Some(sc2));
    ClosedPlaced(sc, text, result, sc2, LoopTurn(sc));
  }

  lemma ClosedPlaced(sc: Scanner, text: string, result: string, sc2: Scanner, t: Turn)
    requires IsText(text) && IsTag(result)
    requires sc2.range == Range(sc.range.hi + |text|, sc.range.hi + |text| + |result|)
    requires t == Turn((if text != [] then [Slice(text, Range(sc.range.hi, sc.range.hi + |text|))] else []) + [Slice(result, sc2.range)], Some(sc2))
    ensures TurnPlaced(sc, t)
  {
    PlacedTurn(sc.range.hi, text, Slice(result, sc2.range));
  }

  /** The pieces of a turn that opens a tag, placed from `start`. */
  lemma PlacedTurn(start: nat, text: string, last: Slice)
    requires IsText(text)
    requires last.raw != [] ==> IsTag(last.raw)
    requires last.raw == [] ==> last.range == Range(start, start + |text|)
    requires last.raw != [] ==> last.range == Range(start + |text|, start + |text| + |last.raw|)
    ensures var r := (if text != [] then [Slice(text, Range(start, start + |text|))] else []) + [last];
      && Placed(start, r)
      && Concat(Raws(r)) == text + last.raw
  {
    var first := Slice(text, Range(start, start + |text|));
    if text != [] {
      var r := [first] + [last];
      assert r == [first, last];
      ConcatPrefixTwo(first, last);
      if last.raw != [] {
        TagNotText(last.raw);
      }
      assert PlacedAt(start, r, 0);
      assert PlacedAt(start, r, 1);
    } else {
      var r := [] + [last];
      assert r == [last];
      ConcatPrefixOne(last);
      assert text + last.raw == last.raw;
      assert PlacedAt(start, r, 0);
    }
  }

  lemma TurnPlacement(sc: Scanner)
    requires Valid(sc) && sc.content != []
    ensures TurnPlaced(sc, LoopTurn(sc))
  {
    if ScanForTokenStart(sc, TokenChars).1.None? {
      PlacedNoOpening(sc);
    } else {
      PlacedOpening(sc);
    }
  }

  /** A continuing turn's pieces, then pieces placed from where the next
      scanner starts, are placed from where the turn started. */
  lemma JoinPlaced(sc: Scanner, pieces: seq<Slice>, sc2: Scanner, rest: seq<Slice>)
    requires TurnPlaced(sc, Turn(pieces, Some(sc2)))
    requires forall k :: 0 <= k < |pieces| ==> pieces[k].raw != []
    requires Placed(sc2.range.hi, rest)
    ensures Placed(sc.range.hi, pieces + rest)
  {
    var r := pieces + rest;
    forall k | 0 <= k < |r|
      ensures PlacedAt(sc.range.hi, r, k)
    {
      if k < |pieces| {
        PlacedInFront(sc.range.hi, pieces, rest, k);
      } else {
        PlacedBehind(sc.range.hi, pieces, sc2.range.hi, rest, k - |pieces|);
      }
    }
  }

  lemma PlacedInFront(start: nat, pieces: seq<Slice>, rest: seq<Slice>, k: nat)
    requires k < |pieces| && PlacedAt(start, pieces, k) && pieces[k].raw != []
    requires IsTag(pieces[|pieces| - 1].raw)
    ensures PlacedAt(start, pieces + rest, k)
  {
    var r := pieces + rest;
    assert r[..k] == pieces[..k];
    assert r[k] == pieces[k];
  }

  lemma PlacedBehind(start: nat, pieces: seq<Slice>, start2: nat, rest: seq<Slice>, k: nat)
    requires pieces != [] && IsTag(pieces[|pieces| - 1].raw)
    requires start2 == start + |Concat(Raws(pieces))|
    requires k < |rest| && PlacedAt(start2, rest, k)
    ensures PlacedAt(start, pieces + rest, |pieces| + k)
  {
    var r := pieces + rest;
    var i := |pieces| + k;
    assert r[..i] == pieces + rest[..k];
    RawsAppend(pieces, rest[..k]);
    ConcatAppend(Raws(pieces), Raws(rest[..k]));
    assert r[i] == rest[k];
    if k == 0 {
      assert r[i - 1] == pieces[|pieces| - 1];
      TagNotText(pieces[|pieces| - 1].raw);
    } else {
      assert r[i - 1] == rest[k - 1];
    }
  }

  /** Every piece of the loop sits where the pieces before it end. */
  lemma {:induction false} SlicesPlaced(sc: Scanner)
    requires Valid(sc)
    ensures Placed(sc.range.hi, Slices(sc))
    decreases |sc.content|
  {
    if sc.content != [] {
      var t := LoopTurn(sc);
      TurnPlacement(sc);
      match t.next
      case None =>
        assert Slices(sc) == t.pieces;
      case Some(sc2) =>
        SlicesPlaced(sc2);
        TurnFacts(sc);
        TurnPiecesNonEmpty(t.pieces);
        assert Slices(sc) == t.pieces + Slices(sc2);
        assert t == Turn(t.pieces, Some(sc2));
        JoinPlaced(sc, t.pieces, sc2, Slices(sc2));
    }
  }

  /** Each token is made from its piece at that piece's range, and the
      pieces sit one after the other from the template's start, so a text
      token's location is that of its first scalar (or, for the empty piece
      of an unclosed tag, of the text before it). */
  lemma TokenizePlaced(lx: Lexer)
    ensures var sl := Slices(Init(lx.templateString));
      && Placed(0, sl)
      && forall k :: 0 <= k < |sl| ==> Tokenize(lx)[k] == CreateToken(lx, sl[k].raw, sl[k].range)
  {
    SlicesPlaced(Init(lx.templateString));
  }

  /** The token `createToken` makes from one piece: a text piece gives a
      text token carrying the piece unchanged, and a tag gives the variable,
      block or comment its opening character names. */
  predicate TokenFits(t: Token, raw: string)
  {
    && (t.kind == Text <==> IsText(raw))
    && (t.kind == Text ==> t.contents == raw && t.whitespace == None)
    && (t.kind != Text ==> IsTag(raw))
    && (t.kind == Variable <==> IsTag(raw) && raw[1] == '{')
    && (t.kind == Block <==> IsTag(raw) && raw[1] == '%')
    && (t.kind == Comment <==> IsTag(raw) && raw[1] == '#')
  }

  lemma PieceToken(lx: Lexer, p: Slice)
    requires PieceOk(lx.templateString, p) && (IsTag(p.raw) || IsText(p.raw))
    ensures TokenFits(CreateToken(lx, p.raw, p.range), p.raw)
  {
    if IsTag(p.raw) {
      TagPieceToken(lx, p);
    } else {
      TextPieceToken(lx, p);
    }
  }

  lemma TagPieceToken(lx: Lexer, p: Slice)
    requires PieceOk(lx.templateString, p) && IsTag(p.raw)
    ensures TokenFits(CreateToken(lx, p.raw, p.range), p.raw)
  {
    assert StartsAt(p.raw, TokenChars, 1);
    assert IsTagOpening(p.raw);
    assert !IsText(p.raw);
  }

  lemma TextPieceToken(lx: Lexer, p: Slice)
    requires PieceOk(lx.templateString, p) && IsText(p.raw) && !IsTag(p.raw)
    ensures TokenFits(CreateToken(lx, p.raw, p.range), p.raw)
  {
    if |p.raw| >= 2 {
      assert !StartsAt(p.raw, TokenChars, 1);
    }
    assert !IsTagOpening(p.raw);
  }

  /** Every token is made from one piece of the template, as `TokenFits`
      says, and that piece sits at its range in the template. */
  lemma TokenizeShape(lx: Lexer, k: nat)
    requires k < |Tokenize(lx)|
    ensures TokenFits(Tokenize(lx)[k], Slices(Init(lx.templateString))[k].raw)
    ensures OccursAt(lx.templateString, Slices(Init(lx.templateString))[k].raw, Slices(Init(lx.templateString))[k].range.lo)
  {
    var sc := Init(lx.templateString);
    SlicesTile(sc);
    var p := Slices(sc)[k];
    assert Shaped(sc.original, p);
    assert Tokenize(lx)[k] == CreateToken(lx, p.raw, p.range);
    PieceToken(lx, p);
  }

  /** Lossless: the pieces spell the template, or the template up to a
      tag that never closes, whose piece is then the empty last one. */
  lemma TokenizeLossless(lx: Lexer)
    ensures var sl := Slices(Init(lx.templateString));
      && IsPrefix(Concat(Raws(sl)), lx.templateString)
      && (|| Concat(Raws(sl)) == lx.templateString
          || (sl != [] && sl[|sl| - 1].raw == [] && UnclosedTag(lx.templateString[|Concat(Raws(sl))|..])))
      && forall k :: 0 <= k < |sl| - 1 ==> sl[k].raw != []
  {
    SlicesTile(Init(lx.templateString));
  }

  /** A template with no tag opening is a single text token (none when it
      is empty), located at the template's start. */
  lemma TokenizePlainText(lx: Lexer)
    requires IsText(lx.templateString)
    ensures lx.templateString == [] ==> Tokenize(lx) == []
    ensures lx.templateString != [] ==>
      Tokenize(lx) == [TextToken(lx.templateString, SourceMap(lx.templateName, RangeLocation(lx, Range(0, 0))))]
  {
    var sc := Init(lx.templateString);
    if lx.templateString != [] {
      assert ScanForTokenStart(sc, TokenChars).1.None?;
      assert LoopTurn(sc) == Turn([Slice(lx.templateString, Range(0, 0))], None);
      assert Slices(sc) == [Slice(lx.templateString, Range(0, 0))];
      assert !IsTagOpening(lx.templateString) by {
        if |lx.templateString| >= 2 {
          assert !StartsAt(lx.templateString, TokenChars, 1);
        }
      }
    }
  }
}

=== FILE: loader.dfy ===
/** Template loaders: the default "first name that exists" lookup, the
    dictionary loader and the file-system loader with its guard against
    paths that leave the base directory. The file system is a parameter:
    path resolution, the reachability probe and reading are functions the
    caller supplies. */
module Loading {
  import opened Wrappers
  import opened Strings

  /** A loaded template: the name it was loaded under and its text. */
  datatype Template = Template(name: string, content: string)

  datatype LoadError =
    | TemplateDoesNotExist(templateNames: seq<string>)
    | SuspiciousFileOperation(basePath: string, path: string)
    /** Any other failure of the file system (probe or read). */
    | ResourceError(path: string)

  /** The load of one name reported that the template does not exist. */
  predicate Missing(load: string -> Result<Template, LoadError>, name: string)
  {
    load(name).Failure? && load(name).error.TemplateDoesNotExist?
  }

  function LoadFirstFrom(load: string -> Result<Template, LoadError>, names: seq<string>, i: nat): (r: Result<Template, LoadError>)
    requires i <= |names|
    ensures r.Success? || !r.error.TemplateDoesNotExist? ==>
      exists k :: i <= k < |names| && r == load(names[k]) && forall j :: i <= j < k ==> Missing(load, names[j])
    ensures r.Failure? && r.error.TemplateDoesNotExist? <==> forall j :: i <= j < |names| ==> Missing(load, names[j])
    ensures r.Failure? && r.error.TemplateDoesNotExist? ==> r.error == TemplateDoesNotExist(names)
    decreases |names| - i
  {
    if i == |names| then Failure(TemplateDoesNotExist(names))
    else
      var r := load(names[i]);
      if r.Failure? && r.error.TemplateDoesNotExist? then LoadFirstFrom(load, names, i + 1) else r
  }

  /** The default `loadTemplate(names:)`: the first name whose load does not
      report a missing template decides the outcome (a template, or any
      other error passed on); when every name is missing, the error names
      them all. */
  function LoadFirst(load: string -> Result<Template, LoadError>, names: seq<string>): (r: Result<Template, LoadError>)
    ensures r.Success? || !r.error.TemplateDoesNotExist? ==>
      exists k :: 0 <= k < |names| && r == load(names[k]) && forall j :: 0 <= j < k ==> Missing(load, names[j])
    ensures r.Failure? && r.error.TemplateDoesNotExist? <==> forall j :: 0 <= j < |names| ==> Missing(load, names[j])
    ensures r.Failure? && r.error.TemplateDoesNotExist? ==> r.error == TemplateDoesNotExist(names)
  {
    LoadFirstFrom(load, names, 0)
  }

  // ---------------------------------------------------------------------
  // DictionaryLoader
  // ---------------------------------------------------------------------

  /** `DictionaryLoader.loadTemplate(name:)`. */
  function DictLoad(templates: map<string, string>, name: string): (r: Result<Template, LoadError>)
    ensures r.Success? <==> name in templates
    ensures r.Success? ==> r.value == Template(name, templates[name])
    ensures r.Failure? ==> r.error == TemplateDoesNotExist([name])
  {
    if name in templates then Success(Template(name, templates[name]))
    else Failure(TemplateDoesNotExist([name]))
  }

  function DictLoadFrom(templates: map<string, string>, names: seq<string>, i: nat): (r: Result<Template, LoadError>)
    requires i <= |names|
    ensures r.Success? ==>
      exists k :: i <= k < |names| && names[k] in templates
        && r.value == Template(names[k], templates[names[k]])
        && forall j :: i <= j < k ==> names[j] !in templates
    ensures r.Failure? <==> forall j :: i <= j < |names| ==> names[j] !in templates
    ensures r.Failure? ==> r.error == TemplateDoesNotExist(names)
    decreases |names| - i
  {
    if i == |names| then Failure(TemplateDoesNotExist(names))
    else if names[i] in templates then Success(Template(names[i], templates[names[i]]))
    else DictLoadFrom(templates, names, i + 1)
  }

  /** `DictionaryLoader.loadTemplate(names:)`: the first name present in
      the dictionary, or an error naming every name. */
  function DictLoadNames(templates: map<string, string>, names: seq<string>): (r: Result<Template, LoadError>)
    ensures r.Success? ==>
      exists k :: 0 <= k < |names| && names[k] in templates
        && r.value == Template(names[k], templates[names[k]])
        && forall j :: 0 <= j < k ==> names[j] !in templates
    ensures r.Failure? <==> forall j :: 0 <= j < |names| ==> names[j] !in templates
    ensures r.Failure? ==> r.error == TemplateDoesNotExist(names)
  {
    DictLoadFrom(templates, names, 0)
  }

  /** The dictionary loader's own lookup of several names agrees with the
      default one built on its single-name lookup. */
  lemma {:induction false} DictLoadNamesIsLoadFirst(templates: map<string, string>, names: seq<string>, i: nat)
    requires i <= |names|
    ensures DictLoadFrom(templates, names, i) == LoadFirstFrom(n => DictLoad(templates, n), names, i)
    decreases |names| - i
  {
    if i < |names| {
      DictLoadNamesIsLoadFirst(templates, names, i + 1);
    }
  }

  // ---------------------------------------------------------------------
  // FileSystemLoader
  // ---------------------------------------------------------------------

  /** `checkResourceIsReachable()`: true, false, or a thrown error. */
  datatype Probe = Reachable | Unreachable | ProbeFailed

  /** The file system as the loader sees it. `resolve(base, name)` is the
      path of `base` with `name` appended and standardized; `read` gives the
      file's text, or nothing when reading throws. */
  datatype FileSystem = FileSystem(
    resolve: (string, string) -> string,
    probe: string -> Probe,
    read: string -> Option<string>)

  /** `safeAppending(path:)`: the resolved path, unless it does not start
      with the base path, which is refused as a suspicious operation. */
  function SafeAppending(fs: FileSystem, base: string, name: string): (r: Result<string, LoadError>)
    ensures r.Success? <==> IsPrefix(base, fs.resolve(base, name))
    ensures r.Success? ==> r.value == fs.resolve(base, name)
    ensures r.Failure? ==> r.error == SuspiciousFileOperation(base, fs.resolve(base, name))
  {
    var path := fs.resolve(base, name);
    if !IsPrefix(base, path) then Failure(SuspiciousFileOperation(base, path)) else Success(path)
  }

  /** What one base path gives for one name. */
  datatype Outcome = Found(path: string, content: string) | NotThere | Failed(error: LoadError)

  /** One iteration of the file-system loader's loop: resolve safely,
      probe, read. A file is only ever read inside the base path. */
  function TryPath(fs: FileSystem, base: string, name: string): (o: Outcome)
    ensures o.Found? ==>
      && o.path == fs.resolve(base, name) && IsPrefix(base, o.path)
      && fs.probe(o.path) == Reachable && fs.read(o.path) == Some(o.content)
    ensures o.NotThere? ==> IsPrefix(base, fs.resolve(base, name)) && fs.probe(fs.resolve(base, name)) == Unreachable
    ensures !IsPrefix(base, fs.resolve(base, name)) ==> o == Failed(SuspiciousFileOperation(base, fs.resolve(base, name)))
  {
    match SafeAppending(fs, base, name)
    case Failure(e) => Failed(e)
    case Success(path) =>
      match fs.probe(path)
      case ProbeFailed => Failed(ResourceError(path))
      case Unreachable => NotThere
      case Reachable =>
        match fs.read(path)
        case None => Failed(ResourceError(path))
        case Some(content) => Found(path, content)
  }

  function FsLoadFrom(fs: FileSystem, paths: seq<string>, name: string, i: nat): (r: Result<Template, LoadError>)
    requires i <= |paths|
    ensures r.Success? <==>
      exists k :: i <= k < |paths| && TryPath(fs, paths[k], name).Found?
        && forall j :: i <= j < k ==> TryPath(fs, paths[j], name).NotThere?
    ensures r.Success? ==>
      exists k :: i <= k < |paths| && TryPath(fs, paths[k], name).Found?
        && r.value == Template(name, TryPath(fs, paths[k], name).content)
        && forall j :: i <= j < k ==> TryPath(fs, paths[j], name).NotThere?
    ensures r.Failure? ==> r.error == TemplateDoesNotExist([name])
    decreases |paths| - i
  {
    if i == |paths| then Failure(TemplateDoesNotExist([name]))
    else
      match TryPath(fs, paths[i], name)
      case Found(_, content) => Success(Template(name, content))
      case NotThere => FsLoadFrom(fs, paths, name, i + 1)
      case Failed(_) => Failure(TemplateDoesNotExist([name]))
  }

  /** `FileSystemLoader.loadTemplate(name:)`: the base paths in order; the
      first one holding the file gives the template, a missing file moves on
      to the next path, and any error (a suspicious path included) ends the
      search as a missing template. */
  function FsLoad(fs: FileSystem, paths: seq<string>, name: string): (r: Result<Template, LoadError>)
    ensures r.Success? <==>
      exists k :: 0 <= k < |paths| && TryPath(fs, paths[k], name).Found?
        && forall j :: 0 <= j < k ==> TryPath(fs, paths[j], name).NotThere?
    ensures r.Success? ==>
      exists k :: 0 <= k < |paths| && TryPath(fs, paths[k], name).Found?
        && r.value == Template(name, TryPath(fs, paths[k], name).content)
        && forall j :: 0 <= j < k ==> TryPath(fs, paths[j], name).NotThere?
    ensures r.Failure? ==> r.error == TemplateDoesNotExist([name])
  {
    FsLoadFrom(fs, paths, name, 0)
  }

  /** The visiting order of the multi-name loader: every name under the
      first path, then every name under the second, and so on. Position
      `(p, n)` comes strictly before `(q, m)`. */
  predicate Earlier(p: nat, n: nat, q: nat, m: nat)
  {
    p < q || (p == q && n < m)
  }

  /** Every position before `(pi, ni)` found nothing there. */
  predicate NothingBefore(fs: FileSystem, paths: seq<string>, names: seq<string>, pi: nat, ni: nat)
  {
    forall p, n :: 0 <= p < |paths| && 0 <= n < |names| && Earlier(p, n, pi, ni) ==>
      TryPath(fs, paths[p], names[n]).NotThere?
  }

  function FsNamesFrom(fs: FileSystem, paths: seq<string>, names: seq<string>, pi: nat, ni: nat): (r: Result<Template, LoadError>)
    requires pi <= |paths| && ni <= |names|
    requires NothingBefore(fs, paths, names, pi, ni)
    ensures r.Success? ==>
      exists p, n :: pi <= p < |paths| && 0 <= n < |names|
        && TryPath(fs, paths[p], names[n]).Found?
        && r.value == Template(names[n], TryPath(fs, paths[p], names[n]).content)
        && NothingBefore(fs, paths, names, p, n)
    ensures r.Failure? ==> r.error == TemplateDoesNotExist(names)
    ensures NothingBefore(fs, paths, names, |paths|, 0) ==> r.Failure?
    decreases |paths| - pi, |names| - ni
  {
    if pi == |paths| then Failure(TemplateDoesNotExist(names))
    else if ni == |names| then
      NextPath(fs, paths, names, pi);
      FsNamesFrom(fs, paths, names, pi + 1, 0)
    else
      match TryPath(fs, paths[pi], names[ni])
      case Found(_, content) => Success(Template(names[ni], content))
      case NotThere =>
        NextName(fs, paths, names, pi, ni);
        FsNamesFrom(fs, paths, names, pi, ni + 1)
      case Failed(_) => Failure(TemplateDoesNotExist(names))
  }

  lemma NextPath(fs: FileSystem, paths: seq<string>, names: seq<string>, pi: nat)
    requires NothingBefore(fs, paths, names, pi, |names|)
    ensures NothingBefore(fs, paths, names, pi + 1, 0)
  {
  }

  lemma NextName(fs: FileSystem, paths: seq<string>, names: seq<string>, pi: nat, ni: nat)
    requires pi < |paths| && ni < |names|
    requires NothingBefore(fs, paths, names, pi, ni)
    requires TryPath(fs, paths[pi], names[ni]).NotThere?
    ensures NothingBefore(fs, paths, names, pi, ni + 1)
  {
  }

  /** `FileSystemLoader.loadTemplate(names:)`: the paths are the outer loop
      and the names the inner one; the first file found gives the template
      under its name, and any error, or finding nothing, is reported as
      every name missing. */
  function FsLoadNames(fs: FileSystem, paths: seq<string>, names: seq<string>): (r: Result<Template, LoadError>)
    ensures r.Success? ==>
      exists p, n :: 0 <= p < |paths| && 0 <= n < |names|
        && TryPath(fs, paths[p], names[n]).Found?
        && r.value == Template(names[n], TryPath(fs, paths[p], names[n]).content)
        && NothingBefore(fs, paths, names, p, n)
    ensures r.Failure? ==> r.error == TemplateDoesNotExist(names)
    ensures NothingBefore(fs, paths, names, |paths|, 0) ==> r.Failure?
  {
    FsNamesFrom(fs, paths, names, 0, 0)
  }

  /** The converse of `FsNamesFrom`'s contract: the first position, in
      path-major order, whose file is found decides the result. */
  lemma {:induction false} FsNamesFromFinds(fs: FileSystem, paths: seq<string>, names: seq<string>, pi: nat, ni: nat, p: nat, n: nat)
    requires pi <= |paths| && ni <= |names|
    requires NothingBefore(fs, paths, names, pi, ni)
    requires p < |paths| && n < |names| && !Earlier(p, n, pi, ni)
    requires TryPath(fs, paths[p], names[n]).Found? && NothingBefore(fs, paths, names, p, n)
    ensures FsNamesFrom(fs, paths, names, pi, ni) == Success(Template(names[n], TryPath(fs, paths[p], names[n]).content))
    decreases |paths| - pi, |names| - ni
  {
    if ni == |names| {
      NextPath(fs, paths, names, pi);
      FsNamesFromFinds(fs, paths, names, pi + 1, 0, p, n);
    } else if pi != p || ni != n {
      assert Earlier(pi, ni, p, n);
      NextName(fs, paths, names, pi, ni);
      FsNamesFromFinds(fs, paths, names, pi, ni + 1, p, n);
    }
  }

  /** A file found at path `p` for name `n`, with nothing found (and
      nothing failing) at any earlier position, is what
      `FileSystemLoader.loadTemplate(names:)` returns. */
  lemma FsLoadNamesFinds(fs: FileSystem, paths: seq<string>, names: seq<string>, p: nat, n: nat)
    requires p < |paths| && n < |names|
    requires TryPath(fs, paths[p], names[n]).Found? && NothingBefore(fs, paths, names, p, n)
    ensures FsLoadNames(fs, paths, names) == Success(Template(names[n], TryPath(fs, paths[p], names[n]).content))
  {
    FsNamesFromFinds(fs, paths, names, 0, 0, p, n);
  }

  /** A name that resolves outside the first base path is never loaded:
      the suspicious path ends the search as a missing template. */
  lemma FsLoadRefusesEscape(fs: FileSystem, paths: seq<string>, name: string)
    requires paths != [] && !IsPrefix(paths[0], fs.resolve(paths[0], name))
    ensures TryPath(fs, paths[0], name) == Failed(SuspiciousFileOperation(paths[0], fs.resolve(paths[0], name)))
    ensures FsLoad(fs, paths, name) == Failure(TemplateDoesNotExist([name]))
  {
  }

  /** A template that is loaded was read from inside one of the base paths. */
  lemma FsLoadConfined(fs: FileSystem, paths: seq<string>, name: string)
    requires FsLoad(fs, paths, name).Success?
    ensures
      exists k, path :: 0 <= k < |paths| && IsPrefix(paths[k], path)
        && fs.read(path) == Some(FsLoad(fs, paths, name).value.content)
  {
    var k :| 0 <= k < |paths| && TryPath(fs, paths[k], name).Found?
      && FsLoad(fs, paths, name).value == Template(name, TryPath(fs, paths[k], name).content);
    var o := TryPath(fs, paths[k], name);
    assert IsPrefix(paths[k], o.path) && fs.read(o.path) == Some(o.content);
  }

  /** With a single base path and no failing file operation, the
      multi-name file-system lookup agrees with the default one built on the
      single-name lookup. */
  lemma {:induction false} FsNamesSinglePath(fs: FileSystem, base: string, names: seq<string>, ni: nat)
    requires ni <= |names|
    requires forall n :: 0 <= n < |names| ==> !TryPath(fs, base, names[n]).Failed?
    requires NothingBefore(fs, [base], names, 0, ni)
    ensures FsNamesFrom(fs, [base], names, 0, ni) == LoadFirstFrom(n => FsLoad(fs, [base], n), names, ni)
    decreases |names| - ni
  {
    if ni == |names| {
      NextPath(fs, [base], names, 0);
      assert FsNamesFrom(fs, [base], names, 0, ni) == FsNamesFrom(fs, [base], names, 1, 0);
    } else {
      var o := TryPath(fs, base, names[ni]);
      assert FsLoad(fs, [base], names[ni]) == FsLoadFrom(fs, [base], names[ni], 0);
      if o.NotThere? {
        assert FsLoadFrom(fs, [base], names[ni], 1) == Failure(TemplateDoesNotExist([names[ni]]));
        NextName(fs, [base], names, 0, ni);
        FsNamesSinglePath(fs, base, names, ni + 1);
      }
    }
  }

  lemma FsLoadNamesSinglePath(fs: FileSystem, base: string, names: seq<string>)
    requires forall n :: 0 <= n < |names| ==> !TryPath(fs, base, names[n]).Failed?
    ensures FsLoadNames(fs, [base], names) == LoadFirst(n => FsLoad(fs, [base], n), names)
  {
    FsNamesSinglePath(fs, base, names, 0);
  }
}

=== FILE: scanner.dfy ===
/** The scanner the lexer walks the template with. It keeps the original
    text, the part not consumed yet, and the range (in Unicode-scalar
    positions of the original) of the piece it returned last. The mutable
    class becomes a value: every scan returns the scanner's next state. */
module Scanning {
  import opened Wrappers

  const StartDelimiter: char := '{'
  const EndDelimiter: char := '}'

  /** A half-open range `lo..<hi` of positions. */
  datatype Range = Range(lo: nat, hi: nat)

  predicate Contains(r: Range, pos: nat)
  {
    r.lo <= pos < r.hi
  }

  datatype Scanner = Scanner(original: string, content: string, range: Range)

  /** What is left to scan is the original from the range's upper bound on. */
  predicate Valid(sc: Scanner)
  {
    sc.range.lo <= sc.range.hi <= |sc.original| && sc.content == sc.original[sc.range.hi..]
  }

  function Init(s: string): (sc: Scanner)
    ensures Valid(sc) && sc.content == s
  {
    Scanner(s, s, Range(0, 0))
  }

  /** `isEmpty`: nothing is left to scan. */
  predicate IsEmpty(sc: Scanner)
  {
    sc.content == []
  }

  /** A token opens at index `i`: a `{` at `i - 1` and one of `chars` at `i`. */
  predicate StartsAt(s: string, chars: seq<char>, i: nat)
  {
    1 <= i < |s| && s[i - 1] == StartDelimiter && s[i] in chars
  }

  /** A token closes at index `i`: `endChar` at `i - 1` and `}` at `i`. */
  predicate EndsAt(s: string, endChar: char, i: nat)
  {
    1 <= i < |s| && s[i - 1] == endChar && s[i] == EndDelimiter
  }

  /** The loop of `scanForTokenStart` from index `i`; `foundBrace` records
      whether the previous scalar was `{`. */
  function ScanStart(s: string, chars: seq<char>, i: nat, foundBrace: bool): (r: Option<nat>)
    requires i <= |s|
    requires foundBrace <==> (i >= 1 && s[i - 1] == StartDelimiter)
    requires forall j :: 1 <= j < i ==> !StartsAt(s, chars, j)
    ensures r.Some? ==> StartsAt(s, chars, r.value)
    ensures r.Some? ==> forall j :: 1 <= j < r.value ==> !StartsAt(s, chars, j)
    ensures r.None? ==> forall j :: 1 <= j < |s| ==> !StartsAt(s, chars, j)
    decreases |s| - i
  {
    if i == |s| then None
    else if foundBrace && s[i] in chars then Some(i)
    else ScanStart(s, chars, i + 1, s[i] == StartDelimiter)
  }

  /** The loop of `scanForTokenEnd` from index `i`; `foundChar` records
      whether the previous scalar was `endChar`. */
  function ScanEnd(s: string, endChar: char, i: nat, foundChar: bool): (r: Option<nat>)
    requires i <= |s|
    requires foundChar <==> (i >= 1 && s[i - 1] == endChar)
    requires forall j :: 1 <= j < i ==> !EndsAt(s, endChar, j)
    ensures r.Some? ==> EndsAt(s, endChar, r.value)
    ensures r.Some? ==> forall j :: 1 <= j < r.value ==> !EndsAt(s, endChar, j)
    ensures r.None? ==> forall j :: 1 <= j < |s| ==> !EndsAt(s, endChar, j)
    decreases |s| - i
  {
    if i == |s| then None
    else if foundChar && s[i] == EndDelimiter then Some(i)
    else ScanEnd(s, endChar, i + 1, s[i] == endChar)
  }

  /** `scanForTokenStart(_:)`. The range first collapses to its upper
      bound. If some `{` is followed by one of `chars`, the first such pair
      is found: the text before it is returned with the character after the
      brace, the content keeps the pair and what follows, and the range
      covers the returned text. Otherwise nothing is returned and the
      content is left as it was. */
  function ScanForTokenStart(sc: Scanner, chars: seq<char>): (r: (Scanner, Option<(char, string)>))
    ensures r.0.original == sc.original && r.0.range.lo == sc.range.hi
    ensures r.1.None? ==>
      && r.0.content == sc.content && r.0.range.hi == sc.range.hi
      && forall j :: 1 <= j < |sc.content| ==> !StartsAt(sc.content, chars, j)
    ensures r.1.Some? ==>
      var (c, text) := r.1.value;
      && text + r.0.content == sc.content
      && |r.0.content| >= 2 && r.0.content[0] == StartDelimiter && r.0.content[1] == c && c in chars
      && r.0.range.hi == sc.range.hi + |text|
      && forall j :: 1 <= j <= |text| ==> !StartsAt(sc.content, chars, j)
    ensures Valid(sc) ==> Valid(r.0)
    ensures Valid(sc) && r.1.Some? ==> sc.original[r.0.range.lo..r.0.range.hi] == r.1.value.1
  {
    var hi := sc.range.hi;
    match ScanStart(sc.content, chars, 0, false)
    case None => (sc.(range := Range(hi, hi)), None)
    case Some(i) =>
      var text := sc.content[..i - 1];
      var rest := sc.content[i - 1..];
      assert text + rest == sc.content;
      assert Valid(sc) ==> sc.original[hi..][..i - 1] == sc.original[hi..hi + i - 1];
      (Scanner(sc.original, rest, Range(hi, hi + i - 1)), Some((sc.content[i], text)))
  }

  /** `scanForTokenEnd(_:)`. If `endChar` is followed by `}` somewhere after
      the first scalar, the text up to and including the first such `}` is
      returned, the content keeps the rest, and the range covers the
      returned text. Otherwise the content is cleared, the range is left
      alone and the empty string is returned. */
  function ScanForTokenEnd(sc: Scanner, endChar: char): (r: (Scanner, string))
    ensures r.0.original == sc.original
    ensures r.1 == [] ==>
      && r.0.content == [] && r.0.range == sc.range
      && forall j :: 1 <= j < |sc.content| ==> !EndsAt(sc.content, endChar, j)
    ensures r.1 != [] ==>
      && r.1 + r.0.content == sc.content
      && |r.1| >= 2 && EndsAt(r.1, endChar, |r.1| - 1)
      && (forall j :: 1 <= j < |r.1| - 1 ==> !EndsAt(sc.content, endChar, j))
      && r.0.range == Range(sc.range.hi, sc.range.hi + |r.1|)
    ensures Valid(sc) && r.1 != [] ==> Valid(r.0) && sc.original[r.0.range.lo..r.0.range.hi] == r.1
  {
    var hi := sc.range.hi;
    match ScanEnd(sc.content, endChar, 0, false)
    case None => (sc.(content := []), [])
    case Some(i) =>
      var result := sc.content[..i + 1];
      var rest := sc.content[i + 1..];
      assert result + rest == sc.content;
      assert Valid(sc) ==> sc.original[hi..][..i + 1] == sc.original[hi..hi + i + 1];
      (Scanner(sc.original, rest, Range(hi, hi + i + 1)), result)
  }
}

=== FILE: smart_split.dfy ===
/** The content splitter (`String.smartSplit` and `appendWord`): splits a
    tag's inner text on a separator outside quotes, then merges punctuation
    into the previous component and peels parentheses off later words.
    The character loop is a left fold of `Step` over the input. */
module SmartSplit {
  import opened Wrappers
  import opened Strings

  /** Characters that glue a word onto the previous component. */
  const Specials: string := ",|:"

  predicate IsQuote(c: char)
  {
    c == '\'' || c == '"'
  }

  /** The component's last character is one of `,`, `|`, `:`. */
  predicate EndsWithSpecial(comp: string)
  {
    comp != [] && comp[|comp| - 1] in Specials
  }

  predicate AllNonEmpty(comps: seq<string>)
  {
    forall k :: 0 <= k < |comps| ==> comps[k] != []
  }

  /** A word whose first (or last) character is a parenthesis other than
      the one-character word made of that parenthesis alone. */
  predicate LeadingParen(word: string)
  {
    word != [] && ((word != "(" && word[0] == '(') || (word != ")" && word[0] == ')'))
  }

  predicate TrailingParen(word: string)
  {
    word != [] && ((word != "(" && word[|word| - 1] == '(') || (word != ")" && word[|word| - 1] == ')'))
  }

  /** `appendWord(_:to:)`: adds one finished word to the components. The
      first word is appended unchanged; later words are merged into the
      previous component after `,`/`|`/`:` (except the labelled `for`), merged
      when they are themselves a piece of `",|:"`, or have a leading or
      trailing parenthesis split off into a component of its own. */
  function AppendWord(comps: seq<string>, word: string): (r: seq<string>)
    requires word != []
    ensures Concat(r) == Concat(comps) + word
    ensures comps == [] ==> r == [word]
    ensures comps != [] ==> |comps| <= |r| && r[..|comps| - 1] == comps[..|comps| - 1]
    ensures AllNonEmpty(comps) ==> AllNonEmpty(r)
    decreases |word|
  {
    if comps == [] then [word]
    else
      var n := |comps|;
      var last := comps[n - 1];
      if EndsWithSpecial(last) && n == 1 && word == "for" then
        AppendFacts(comps, word);
        comps + [word]
      else if EndsWithSpecial(last) || IsSubstring(word, Specials) then
        MergeFacts(comps, word);
        comps[..n - 1] + [last + word]
      else if LeadingParen(word) then
        var head := word[..1];
        var r := AppendWord(comps + [head], word[1..]);
        LeadingFacts(comps, word, r);
        r
      else if TrailingParen(word) then
        var init := word[..|word| - 1];
        var r0 := AppendWord(comps, init);
        TrailingFacts(comps, word, r0);
        r0 + [word[|word| - 1..]]
      else
        AppendFacts(comps, word);
        comps + [word]
  }

  lemma AppendFacts(comps: seq<string>, word: string)
    requires comps != [] && word != []
    ensures Concat(comps + [word]) == Concat(comps) + word
    ensures (comps + [word])[..|comps| - 1] == comps[..|comps| - 1]
    ensures AllNonEmpty(comps) ==> AllNonEmpty(comps + [word])
  {
    var r := comps + [word];
    assert r[..|comps|] == comps;
    assert r[..|comps| - 1] == comps[..|comps| - 1];
    if AllNonEmpty(comps) {
      forall k | 0 <= k < |r|
        ensures r[k] != []
      {
        if k < |comps| { assert r[k] == comps[k]; }
      }
    }
  }

  lemma MergeFacts(comps: seq<string>, word: string)
    requires comps != [] && word != []
    ensures var r := comps[..|comps| - 1] + [comps[|comps| - 1] + word];
      && Concat(r) == Concat(comps) + word
      && |r| == |comps| && r[..|comps| - 1] == comps[..|comps| - 1]
      && (AllNonEmpty(comps) ==> AllNonEmpty(r))
  {
    var n := |comps|;
    var r := comps[..n - 1] + [comps[n - 1] + word];
    assert r[..n - 1] == comps[..n - 1];
  }

  lemma LeadingFacts(comps: seq<string>, word: string, r: seq<string>)
    requires comps != [] && |word| >= 2
    requires Concat(r) == Concat(comps + [word[..1]]) + word[1..]
    requires |comps + [word[..1]]| <= |r| && r[..|comps|] == (comps + [word[..1]])[..|comps|]
    requires AllNonEmpty(comps + [word[..1]]) ==> AllNonEmpty(r)
    ensures Concat(r) == Concat(comps) + word
    ensures |comps| <= |r| && r[..|comps| - 1] == comps[..|comps| - 1]
    ensures AllNonEmpty(comps) ==> AllNonEmpty(r)
  {
    var head := word[..1];
    assert head + word[1..] == word;
    assert (comps + [head])[..|comps|] == comps;
    assert (comps + [head])[..|comps|] == comps;
    assert Concat(comps + [head]) == Concat(comps) + head;
    assert r[..|comps| - 1] == r[..|comps|][..|comps| - 1];
    if AllNonEmpty(comps) {
      assert AllNonEmpty(comps + [head]);
    }
  }

  lemma TrailingFacts(comps: seq<string>, word: string, r0: seq<string>)
    requires comps != [] && |word| >= 2
    requires Concat(r0) == Concat(comps) + word[..|word| - 1]
    requires |comps| <= |r0| && r0[..|comps| - 1] == comps[..|comps| - 1]
    requires AllNonEmpty(comps) ==> AllNonEmpty(r0)
    ensures var r := r0 + [word[|word| - 1..]];
      && Concat(r) == Concat(comps) + word
      && |comps| <= |r| && r[..|comps| - 1] == comps[..|comps| - 1]
      && (AllNonEmpty(comps) ==> AllNonEmpty(r))
  {
    var tail := word[|word| - 1..];
    var r := r0 + [tail];
    assert word[..|word| - 1] + tail == word;
    assert r[..|r0|] == r0;
    assert r[..|comps| - 1] == r0[..|comps| - 1];
  }

  /** The loop state of `smartSplit`: the word being built, the components
      so far, the current separator (the split character, or the quote that
      opened the current quoted region) and the two running quote counts. */
  datatype SplitState = SplitState(
    word: string,
    components: seq<string>,
    separate: char,
    singleQuotes: nat,
    doubleQuotes: nat)

  function Start(separator: char): SplitState
  {
    SplitState([], [], separator, 0, 0)
  }

  /** One iteration of the character loop. An unquoted separator ends the
      word only when the word is non-empty and at least ONE of the two quote
      counts is even; otherwise it is dropped. */
  function Step(separator: char, st: SplitState, c: char): SplitState
  {
    var singles := if c == '\'' then st.singleQuotes + 1 else st.singleQuotes;
    var doubles := if c != '\'' && c == '"' then st.doubleQuotes + 1 else st.doubleQuotes;
    if c == st.separate then
      if st.separate != separator then
        SplitState(st.word + [st.separate], st.components, separator, singles, doubles)
      else if (singles % 2 == 0 || doubles % 2 == 0) && st.word != [] then
        SplitState([], AppendWord(st.components, st.word), separator, singles, doubles)
      else
        SplitState(st.word, st.components, separator, singles, doubles)
    else
      var separate := if st.separate == separator && IsQuote(c) then c else st.separate;
      SplitState(st.word + [c], st.components, separate, singles, doubles)
  }

  function Run(separator: char, st: SplitState, s: string): SplitState
    decreases |s|
  {
    if s == [] then st else Run(separator, Step(separator, st, s[0]), s[1..])
  }

  /** After the loop, a non-empty pending word is appended. */
  function Finish(st: SplitState): seq<string>
  {
    if st.word != [] then AppendWord(st.components, st.word) else st.components
  }

  /** `smartSplit(separator:)`. No component is empty, and together the
      components spell the input with exactly the separators met outside a
      quoted region removed: quotes and every other character are kept, in
      order. */
  function Split(s: string, separator: char := ' '): (r: seq<string>)
    ensures AllNonEmpty(r)
    ensures Concat(r) == Unquoted(separator, None, s)
  {
    var fin := Run(separator, Start(separator), s);
    RunConcat(separator, Start(separator), s);
    RunNonEmpty(separator, Start(separator), s);
    assert Concat(Finish(fin)) == Concat(fin.components) + fin.word;
    Finish(fin)
  }

  // ---------------------------------------------------------------------
  // Reference: which characters survive, tracked by quote state alone.
  // ---------------------------------------------------------------------

  /** `s` with every separator met outside a quoted region removed. `open`
      is the quote character of the region being read, if any. */
  function Unquoted(separator: char, open: Option<char>, s: string): string
    decreases |s|
  {
    if s == [] then []
    else
      var c := s[0];
      match open
      case None =>
        if c == separator then Unquoted(separator, None, s[1..])
        else [c] + Unquoted(separator, if IsQuote(c) then Some(c) else None, s[1..])
      case Some(q) =>
        [c] + Unquoted(separator, if c == q then None else open, s[1..])
  }

  /** The state's `separate` is the split character or an opening quote. */
  predicate QuoteStateOk(separator: char, st: SplitState)
  {
    st.separate == separator || (IsQuote(st.separate) && st.separate != separator)
  }

  function OpenQuote(separator: char, st: SplitState): Option<char>
  {
    if st.separate == separator then None else Some(st.separate)
  }

  lemma StepKeeps(separator: char, st: SplitState, c: char)
    requires QuoteStateOk(separator, st)
    ensures var st' := Step(separator, st, c);
      && QuoteStateOk(separator, st')
      && Concat(st'.components) + st'.word
         == Concat(st.components) + st.word
            + (Unquoted(separator, OpenQuote(separator, st), [c]))
      && Unquoted(separator, OpenQuote(separator, st), [c] + [])
         == Unquoted(separator, OpenQuote(separator, st), [c])
  {
    assert ([c] + [])[1..] == [];
  }

  lemma {:induction false} UnquotedCons(separator: char, open: Option<char>, c: char, s: string)
    ensures Unquoted(separator, open, [c] + s)
         == Unquoted(separator, open, [c])
            + Unquoted(separator, NextOpen(separator, open, c), s)
  {
    assert ([c] + s)[1..] == s;
    assert [c][1..] == [];
  }

  function NextOpen(separator: char, open: Option<char>, c: char): Option<char>
  {
    match open
    case None => if c != separator && IsQuote(c) then Some(c) else None
    case Some(q) => if c == q then None else open
  }

  lemma StepOpen(separator: char, st: SplitState, c: char)
    requires QuoteStateOk(separator, st)
    ensures OpenQuote(separator, Step(separator, st, c)) == NextOpen(separator, OpenQuote(separator, st), c)
  {
  }

  /** The loop keeps `concat(components) + word` equal to the surviving
      characters of the input read so far. */
  lemma {:induction false} RunConcat(separator: char, st: SplitState, s: string)
    requires QuoteStateOk(separator, st)
    ensures QuoteStateOk(separator, Run(separator, st, s))
    ensures Concat(Run(separator, st, s).components) + Run(separator, st, s).word
         == Concat(st.components) + st.word + Unquoted(separator, OpenQuote(separator, st), s)
    decreases |s|
  {
    if s != [] {
      var st' := Step(separator, st, s[0]);
      StepKeeps(separator, st, s[0]);
      StepOpen(separator, st, s[0]);
      RunConcat(separator, st', s[1..]);
      assert [s[0]] + s[1..] == s;
      UnquotedCons(separator, OpenQuote(separator, st), s[0], s[1..]);
    }
  }

  /** The loop never adds an empty component. */
  lemma {:induction false} RunNonEmpty(separator: char, st: SplitState, s: string)
    requires AllNonEmpty(st.components)
    ensures AllNonEmpty(Run(separator, st, s).components)
    decreases |s|
  {
    if s != [] {
      RunNonEmpty(separator, Step(separator, st, s[0]), s[1..]);
    }
  }

  // ---------------------------------------------------------------------
  // Reference: plain text splits like `components(separatedBy:)` minus
  // the empty parts.
  // ---------------------------------------------------------------------

  /** Characters with a role in the splitter besides the separator. */
  const Punctuation: string := ",|:()'\""

  predicate Plain(s: string)
  {
    forall k :: 0 <= k < |s| ==> s[k] !in Punctuation
  }

  lemma PlainNotSpecial(word: string)
    requires word != [] && Plain(word)
    ensures !IsSubstring(word, Specials)
    ensures !LeadingParen(word) && !TrailingParen(word)
  {
    forall p: nat | p <= |Specials|
      ensures !OccursAt(Specials, word, p)
    {
      if p + |word| <= |Specials| {
        assert Specials[p..p + |word|][0] == Specials[p];
      }
    }
  }

  lemma AppendPlain(comps: seq<string>, word: string)
    requires word != [] && Plain(word)
    requires forall k :: 0 <= k < |comps| ==> comps[k] != [] && Plain(comps[k])
    ensures AppendWord(comps, word) == comps + [word]
  {
    PlainNotSpecial(word);
    if comps != [] {
      var last := comps[|comps| - 1];
      assert last[|last| - 1] !in Specials;
    }
  }

  /** Invariant of the loop over plain text: no quote has been counted, no
      region is open, the word and the components are plain. */
  predicate PlainState(separator: char, st: SplitState)
  {
    && st.separate == separator
    && st.singleQuotes == 0 && st.doubleQuotes == 0
    && separator !in st.word && Plain(st.word)
    && forall k :: 0 <= k < |st.components| ==> st.components[k] != [] && Plain(st.components[k])
  }

  lemma FinishPlain(separator: char, st: SplitState)
    requires PlainState(separator, st)
    ensures Finish(st) == st.components + DropEmpty(Strings.Split(st.word, separator))
  {
    assert IndexOf(st.word, separator) == None;
    assert Strings.Split(st.word, separator) == [st.word];
    DropEmptyCons(st.word, []);
    if st.word != [] {
      AppendPlain(st.components, st.word);
    }
  }

  /** A separator over plain text closes the word (if any); any other plain
      character extends it. */
  lemma StepPlain(separator: char, st: SplitState, c: char)
    requires PlainState(separator, st) && c !in Punctuation
    ensures c == separator && st.word != [] ==>
      Step(separator, st, c) == SplitState([], st.components + [st.word], separator, 0, 0)
    ensures c == separator && st.word == [] ==> Step(separator, st, c) == st
    ensures c != separator ==>
      Step(separator, st, c) == SplitState(st.word + [c], st.components, separator, 0, 0)
    ensures PlainState(separator, Step(separator, st, c))
  {
    if c == separator && st.word != [] {
      AppendPlain(st.components, st.word);
    }
  }

  lemma {:induction false} RunPlain(separator: char, st: SplitState, s: string)
    requires PlainState(separator, st) && Plain(s)
    ensures Finish(Run(separator, st, s)) == st.components + DropEmpty(Strings.Split(st.word + s, separator))
    decreases |s|, 1
  {
    if s == [] {
      assert st.word + s == st.word;
      FinishPlain(separator, st);
    } else {
      RunPlainStep(separator, st, s);
    }
  }

  lemma {:induction false} RunPlainStep(separator: char, st: SplitState, s: string)
    requires PlainState(separator, st) && Plain(s) && s != []
    ensures Finish(Run(separator, st, s)) == st.components + DropEmpty(Strings.Split(st.word + s, separator))
    decreases |s|, 0
  {
    var st' := Step(separator, st, s[0]);
    StepPlain(separator, st, s[0]);
    RunPlain(separator, st', s[1..]);
    PlainStepCases(separator, st, s);
  }

  /** Case analysis of the plain-text step, given the claim for the rest. */
  lemma PlainStepCases(separator: char, st: SplitState, s: string)
    requires s != [] && separator !in st.word
    requires s[0] == separator && st.word != [] ==>
      Step(separator, st, s[0]) == SplitState([], st.components + [st.word], separator, 0, 0)
    requires s[0] == separator && st.word == [] ==> Step(separator, st, s[0]) == st
    requires s[0] != separator ==>
      Step(separator, st, s[0]) == SplitState(st.word + [s[0]], st.components, separator, 0, 0)
    requires var st' := Step(separator, st, s[0]);
      Finish(Run(separator, st', s[1..])) == st'.components + DropEmpty(Strings.Split(st'.word + s[1..], separator))
    ensures Finish(Run(separator, st, s)) == st.components + DropEmpty(Strings.Split(st.word + s, separator))
  {
    var c, t := s[0], s[1..];
    var out := Finish(Run(separator, Step(separator, st, c), t));
    assert Finish(Run(separator, st, s)) == out;
    ConsParts(st.word, s);
    if c != separator {
      PlainOther(separator, st, c, t, out);
    } else if st.word == [] {
      assert [] + t == t;
      SeparatorAfterNothing(separator, st.components, t, out);
    } else {
      assert [] + t == t;
      SeparatorAfterWord(separator, st.components, st.word, t, out);
    }
  }

  lemma ConsParts(w: string, s: string)
    requires s != []
    ensures w + s == w + [s[0]] + s[1..]
    ensures w + s == (w + [s[0]]) + s[1..]
  {
    assert s == [s[0]] + s[1..];
  }

  lemma PlainOther(separator: char, st: SplitState, c: char, t: string, out: seq<string>)
    requires out == st.components + DropEmpty(Strings.Split((st.word + [c]) + t, separator))
    ensures out == st.components + DropEmpty(Strings.Split(st.word + [c] + t, separator))
  {
  }

  /** Splitting after a separator-free word `w`: the non-empty parts are
      `w` (when non-empty) followed by those of the rest. */
  lemma DropSplitAfterWord(separator: char, w: string, t: string)
    requires separator !in w
    ensures DropEmpty(Strings.Split(w + [separator] + t, separator))
         == (if w == [] then [] else [w]) + DropEmpty(Strings.Split(t, separator))
  {
    SplitAfterPart(w, t, separator);
    DropEmptyCons(w, Strings.Split(t, separator));
  }

  lemma SeparatorAfterNothing(separator: char, comps: seq<string>, t: string, out: seq<string>)
    requires out == comps + DropEmpty(Strings.Split(t, separator))
    ensures out == comps + DropEmpty(Strings.Split([] + [separator] + t, separator))
  {
    DropSplitAfterWord(separator, [], t);
  }

  lemma SeparatorAfterWord(separator: char, comps: seq<string>, w: string, t: string, out: seq<string>)
    requires separator !in w && w != []
    requires out == (comps + [w]) + DropEmpty(Strings.Split(t, separator))
    ensures out == comps + DropEmpty(Strings.Split(w + [separator] + t, separator))
  {
    DropSplitAfterWord(separator, w, t);
  }

  lemma {:induction false} DropEmptyCons(w: string, rest: seq<string>)
    ensures DropEmpty([w] + rest) == (if w == [] then [] else [w]) + DropEmpty(rest)
    decreases |rest|
  {
    if rest != [] {
      var init := rest[..|rest| - 1];
      DropEmptyCons(w, init);
      assert ([w] + rest)[..|rest|] == [w] + init;
    } else {
      assert [w] + rest == [w];
      assert [w][..0] == [];
    }
  }

  /** Reference for text with no quotes, punctuation or parentheses: the
      components are exactly the non-empty separator-delimited parts. */
  lemma SplitPlain(s: string, separator: char)
    requires Plain(s)
    ensures Split(s, separator) == DropEmpty(Strings.Split(s, separator))
  {
    RunPlain(separator, Start(separator), s);
    assert [] + s == s;
  }

  // ---------------------------------------------------------------------
  // How the loop composes: quoted phrases stay together, an unquoted
  // separator ends the word unless both quote counts are odd.
  // ---------------------------------------------------------------------

  lemma {:induction false} RunAppend(separator: char, st: SplitState, a: string, b: string)
    ensures Run(separator, st, a + b) == Run(separator, Run(separator, st, a), b)
    decreases |a|
  {
    if a == [] {
      assert a + b == b;
    } else {
      assert (a + b)[1..] == a[1..] + b;
      RunAppend(separator, Step(separator, st, a[0]), a[1..], b);
    }
  }

  lemma RunOne(separator: char, st: SplitState, c: char)
    ensures Run(separator, st, [c]) == Step(separator, st, c)
  {
    assert [c][1..] == [];
  }

  /** The quote region left open after reading `s` (none when every
      region opened outside quotes has been closed). */
  function QuoteAfter(separator: char, open: Option<char>, s: string): Option<char>
    decreases |s|
  {
    if s == [] then open else QuoteAfter(separator, NextOpen(separator, open, s[0]), s[1..])
  }

  lemma {:induction false} RunQuoteAfter(separator: char, st: SplitState, s: string)
    requires QuoteStateOk(separator, st)
    ensures QuoteStateOk(separator, Run(separator, st, s))
    ensures OpenQuote(separator, Run(separator, st, s)) == QuoteAfter(separator, OpenQuote(separator, st), s)
    decreases |s|
  {
    if s != [] {
      StepOpen(separator, st, s[0]);
      RunQuoteAfter(separator, Step(separator, st, s[0]), s[1..]);
    }
  }

  /** Number of copies of `ch` in `s`. */
  function Count(s: string, ch: char): nat
    decreases |s|
  {
    if s == [] then 0 else (if s[0] == ch then 1 else 0) + Count(s[1..], ch)
  }

  lemma {:induction false} RunCounts(separator: char, st: SplitState, s: string)
    ensures Run(separator, st, s).singleQuotes == st.singleQuotes + Count(s, '\'')
    ensures Run(separator, st, s).doubleQuotes == st.doubleQuotes + Count(s, '"')
    decreases |s|
  {
    if s != [] {
      RunCounts(separator, Step(separator, st, s[0]), s[1..]);
    }
  }

  /** An unquoted separator after `x`, with at least one of the two quote
      counts even, ends the pending word: splitting continues from the
      components of `x` alone, with no word pending (later words may still
      merge into the last component). */
  lemma SplitResumes(x: string, y: string, separator: char)
    requires QuoteAfter(separator, None, x) == None
    requires Count(x + [separator], '\'') % 2 == 0 || Count(x + [separator], '"') % 2 == 0
    ensures Split(x + [separator] + y, separator)
         == Finish(Run(separator,
              SplitState([], Split(x, separator), separator, Count(x + [separator], '\''), Count(x + [separator], '"')), y))
  {
    var st := Run(separator, Start(separator), x);
    RunQuoteAfter(separator, Start(separator), x);
    RunCounts(separator, Start(separator), x + [separator]);
    RunAppend(separator, Start(separator), x, [separator]);
    RunOne(separator, st, separator);
    RunAppend(separator, Start(separator), x + [separator], y);
  }

  /** The quirk of the count test: with both quote counts odd, an
      unquoted separator (other than a quote) is dropped, gluing the words
      on either side together. */
  lemma SplitDropsSeparator(x: string, y: string, separator: char)
    requires !IsQuote(separator)
    requires QuoteAfter(separator, None, x) == None
    requires Count(x, '\'') % 2 == 1 && Count(x, '"') % 2 == 1
    ensures Split(x + [separator] + y, separator) == Split(x + y, separator)
  {
    var st := Run(separator, Start(separator), x);
    RunQuoteAfter(separator, Start(separator), x);
    RunCounts(separator, Start(separator), x);
    RunAppend(separator, Start(separator), x, [separator]);
    RunOne(separator, st, separator);
    assert Step(separator, st, separator) == st;
    RunAppend(separator, Start(separator), x + [separator], y);
    RunAppend(separator, Start(separator), x, y);
  }

  /** Inside a region opened by `q`, every character but `q` joins the word. */
  lemma {:induction false} RunInside(separator: char, st: SplitState, q: char, body: string)
    requires st.separate == q && q != separator && q !in body
    ensures Run(separator, st, body).separate == q
    ensures Run(separator, st, body).word == st.word + body
    ensures Run(separator, st, body).components == st.components
    decreases |body|
  {
    if body == [] {
      assert st.word + body == st.word;
    } else {
      RunInside(separator, Step(separator, st, body[0]), q, body[1..]);
      assert st.word + [body[0]] + body[1..] == st.word + body;
    }
  }

  /** A quoted phrase read outside any quote is added to the word whole,
      separators included, and closes its region. */
  lemma RunQuoted(separator: char, st: SplitState, q: char, body: string)
    requires st.separate == separator && IsQuote(q) && q != separator && q !in body
    ensures Run(separator, st, [q] + body + [q]).separate == separator
    ensures Run(separator, st, [q] + body + [q]).word == st.word + ([q] + body + [q])
    ensures Run(separator, st, [q] + body + [q]).components == st.components
  {
    var st1 := Step(separator, st, q);
    RunOne(separator, st, q);
    RunInside(separator, st1, q, body);
    var st2 := Run(separator, st1, body);
    RunOne(separator, st2, q);
    RunAppend(separator, st, [q], body);
    RunAppend(separator, st, [q] + body, [q]);
    assert st.word + [q] + body + [q] == st.word + ([q] + body + [q]);
  }

  /** A piece that `appendWord` cannot cut: it neither starts nor ends
      with a parenthesis. */
  predicate Uncut(u: string)
  {
    u != [] && u[0] != '(' && u[0] != ')' && u[|u| - 1] != '(' && u[|u| - 1] != ')'
  }

  /** `u` lies inside one of the components. */
  predicate InSome(u: string, comps: seq<string>)
  {
    exists k :: 0 <= k < |comps| && IsSubstring(u, comps[k])
  }

  lemma SubstringWithin(u: string, a: string, w: string, b: string)
    requires IsSubstring(u, w)
    ensures IsSubstring(u, a + w + b)
  {
    var p: nat :| p <= |w| && OccursAt(w, u, p);
    assert (a + w + b)[|a| + p..|a| + p + |u|] == w[p..p + |u|];
    assert OccursAt(a + w + b, u, |a| + p);
  }

  lemma SubstringOfPrefix(u: string, a: string, b: string)
    requires IsSubstring(u, a) && IsPrefix(a, b)
    ensures IsSubstring(u, b)
  {
    var p: nat :| p <= |a| && OccursAt(a, u, p);
    assert b[p..p + |u|] == b[..|a|][p..p + |u|];
    assert OccursAt(b, u, p);
  }

  /** `appendWord` only ever extends the last of the existing components. */
  lemma {:induction false} AppendWordPrefix(comps: seq<string>, word: string)
    requires comps != [] && word != []
    ensures |comps| <= |AppendWord(comps, word)|
    ensures IsPrefix(comps[|comps| - 1], AppendWord(comps, word)[|comps| - 1])
    decreases |word|
  {
    var n := |comps|;
    var last := comps[n - 1];
    var r := AppendWord(comps, word);
    if EndsWithSpecial(last) && n == 1 && word == "for" {
    } else if EndsWithSpecial(last) || IsSubstring(word, Specials) {
      assert r[n - 1] == last + word;
    } else if LeadingParen(word) {
      var c1 := comps + [word[..1]];
      assert r[..n] == c1[..n];
      assert r[n - 1] == r[..n][n - 1];
    } else if TrailingParen(word) {
      var r0 := AppendWord(comps, word[..|word| - 1]);
      AppendWordPrefix(comps, word[..|word| - 1]);
      assert r[n - 1] == r0[n - 1];
    }
  }

  /** A component holding `u` still holds it after `appendWord`. */
  lemma AppendKeeps(u: string, comps: seq<string>, word: string)
    requires word != [] && InSome(u, comps)
    ensures InSome(u, AppendWord(comps, word))
  {
    var k :| 0 <= k < |comps| && IsSubstring(u, comps[k]);
    var r := AppendWord(comps, word);
    AppendWordPrefix(comps, word);
    if k < |comps| - 1 {
      assert r[k] == r[..|comps| - 1][k];
      assert r[k] == comps[k];
    } else {
      SubstringOfPrefix(u, comps[k], r[k]);
    }
  }

  /** A piece of the word that is not cut ends up inside one component. */
  lemma {:induction false} AppendWordHolds(u: string, comps: seq<string>, word: string)
    requires word != [] && Uncut(u) && IsSubstring(u, word)
    ensures InSome(u, AppendWord(comps, word))
    decreases |word|
  {
    if comps == [] {
      HoldsAppended(u, comps, word);
    } else {
      var n := |comps|;
      var last := comps[n - 1];
      if EndsWithSpecial(last) && n == 1 && word == "for" {
        HoldsAppended(u, comps, word);
      } else if EndsWithSpecial(last) || IsSubstring(word, Specials) {
        HoldsMerged(u, comps, word);
      } else if LeadingParen(word) {
        DropFirstKeeps(u, word);
        AppendWordHolds(u, comps + [word[..1]], word[1..]);
      } else if TrailingParen(word) {
        DropLastKeeps(u, word);
        AppendWordHolds(u, comps, word[..|word| - 1]);
        HoldsSnoc(u, AppendWord(comps, word[..|word| - 1]), word[|word| - 1..]);
      } else {
        HoldsAppended(u, comps, word);
      }
    }
  }

  lemma HoldsAppended(u: string, comps: seq<string>, word: string)
    requires IsSubstring(u, word)
    ensures InSome(u, comps + [word])
  {
    assert (comps + [word])[|comps|] == word;
  }

  lemma HoldsMerged(u: string, comps: seq<string>, word: string)
    requires comps != [] && IsSubstring(u, word)
    ensures InSome(u, comps[..|comps| - 1] + [comps[|comps| - 1] + word])
  {
    var last := comps[|comps| - 1];
    SubstringWithin(u, last, word, []);
    assert last + word + [] == last + word;
    assert (comps[..|comps| - 1] + [last + word])[|comps| - 1] == last + word;
  }

  lemma HoldsSnoc(u: string, comps: seq<string>, x: string)
    requires InSome(u, comps)
    ensures InSome(u, comps + [x])
  {
    var k :| 0 <= k < |comps| && IsSubstring(u, comps[k]);
    assert (comps + [x])[k] == comps[k];
  }

  /** Peeling a leading parenthesis leaves an uncut piece in place. */
  lemma DropFirstKeeps(u: string, word: string)
    requires Uncut(u) && IsSubstring(u, word) && (word[0] == '(' || word[0] == ')')
    ensures IsSubstring(u, word[1..])
  {
    var p: nat :| p <= |word| && OccursAt(word, u, p);
    assert word[p] == u[0];
    var rest := word[1..];
    assert rest[p - 1..p - 1 + |u|] == word[p..p + |u|];
    assert OccursAt(rest, u, p - 1);
  }

  lemma DropLastKeeps(u: string, word: string)
    requires Uncut(u) && IsSubstring(u, word) && (word[|word| - 1] == '(' || word[|word| - 1] == ')')
    ensures IsSubstring(u, word[..|word| - 1])
  {
    var p: nat :| p <= |word| && OccursAt(word, u, p);
    assert word[p + |u| - 1] == u[|u| - 1];
    assert p + |u| - 1 != |word| - 1;
    var init := word[..|word| - 1];
    assert p + |u| <= |init|;
    assert init[p..p + |u|] == word[p..p + |u|];
    assert OccursAt(init, u, p);
  }

  /** `u` is in the pending word or already in a component. */
  predicate Holds(u: string, st: SplitState)
  {
    IsSubstring(u, st.word) || InSome(u, st.components)
  }

  /** One step either extends the word or hands the word to `appendWord`. */
  lemma StepShape(separator: char, st: SplitState, c: char)
    ensures var st' := Step(separator, st, c);
      || (st'.components == st.components && IsPrefix(st.word, st'.word))
      || (st.word != [] && st'.word == [] && st'.components == AppendWord(st.components, st.word))
  {
    var st' := Step(separator, st, c);
    if st'.components == st.components && |st.word| <= |st'.word| {
      assert st'.word[..|st.word|] == st.word;
    }
  }

  lemma StepHolds(separator: char, st: SplitState, c: char, u: string)
    requires Uncut(u) && Holds(u, st)
    ensures Holds(u, Step(separator, st, c))
  {
    var st' := Step(separator, st, c);
    StepShape(separator, st, c);
    if st'.components == st.components && IsPrefix(st.word, st'.word) {
      if IsSubstring(u, st.word) {
        SubstringOfPrefix(u, st.word, st'.word);
      }
    } else if IsSubstring(u, st.word) {
      AppendWordHolds(u, st.components, st.word);
    } else {
      AppendKeeps(u, st.components, st.word);
    }
  }

  lemma {:induction false} RunHolds(separator: char, st: SplitState, s: string, u: string)
    requires Uncut(u) && Holds(u, st)
    ensures Holds(u, Run(separator, st, s))
    decreases |s|
  {
    if s != [] {
      StepHolds(separator, st, s[0], u);
      RunHolds(separator, Step(separator, st, s[0]), s[1..], u);
    }
  }

  lemma FinishHolds(st: SplitState, u: string)
    requires Uncut(u) && Holds(u, st)
    ensures InSome(u, Finish(st))
  {
    if st.word != [] {
      if IsSubstring(u, st.word) {
        AppendWordHolds(u, st.components, st.word);
      } else {
        AppendKeeps(u, st.components, st.word);
      }
    }
  }

  /** Quoted phrases stay together: a phrase from a quote to the matching
      quote, opened outside any quoted region, lies whole inside one
      component, whatever separators it holds. */
  lemma SplitKeepsQuoted(pre: string, q: char, body: string, post: string, separator: char)
    requires IsQuote(q) && q != separator && q !in body
    requires QuoteAfter(separator, None, pre) == None
    ensures InSome([q] + body + [q], Split(pre + ([q] + body + [q]) + post, separator))
  {
    var u := [q] + body + [q];
    var st1 := Run(separator, Start(separator), pre);
    RunQuoteAfter(separator, Start(separator), pre);
    RunQuoted(separator, st1, q, body);
    var st2 := Run(separator, st1, u);
    assert st2.word[|st1.word|..|st1.word| + |u|] == u;
    assert OccursAt(st2.word, u, |st1.word|);
    RunHolds(separator, st2, post, u);
    FinishHolds(Run(separator, st2, post), u);
    RunAppend(separator, Start(separator), pre, u);
    RunAppend(separator, Start(separator), pre + u, post);
  }

  // ---------------------------------------------------------------------
  // Worked inputs.
  // ---------------------------------------------------------------------

  /** Outside quotes, characters that are neither the separator nor a
      quote just extend the word. */
  lemma {:induction false} RunWord(separator: char, st: SplitState, w: string)
    requires st.separate == separator
    requires forall k :: 0 <= k < |w| ==> w[k] != separator && !IsQuote(w[k])
    ensures Run(separator, st, w) == st.(word := st.word + w)
    decreases |w|
  {
    if w == [] {
      assert st.word + w == st.word;
    } else {
      RunWord(separator, Step(separator, st, w[0]), w[1..]);
      assert st.word + [w[0]] + w[1..] == st.word + w;
    }
  }

  /** A word whose first character is not one of `,|:` is no piece of them. */
  lemma NotInSpecials(word: string)
    requires word != [] && word[0] !in Specials
    ensures !IsSubstring(word, Specials)
  {
    forall p: nat | p <= |Specials|
      ensures !OccursAt(Specials, word, p)
    {
      if p + |word| <= |Specials| {
        assert Specials[p..p + |word|][0] == Specials[p];
      }
    }
  }

  /** The plain case of `appendWord`: nothing to merge, no parenthesis. */
  lemma AppendOrdinary(comps: seq<string>, word: string)
    requires comps != [] && !EndsWithSpecial(comps[|comps| - 1])
    requires word != [] && word[0] !in Specials && !LeadingParen(word) && !TrailingParen(word)
    ensures AppendWord(comps, word) == comps + [word]
  {
    NotInSpecials(word);
  }

  /** A word of ordinary characters, then the separator, with no quote
      read yet: the word is handed to `appendWord`. */
  lemma WordThenSeparator(separator: char, comps: seq<string>, w: string)
    requires !IsQuote(separator) && w != [] && forall k :: 0 <= k < |w| ==> w[k] != separator && !IsQuote(w[k])
    ensures Run(separator, SplitState([], comps, separator, 0, 0), w + [separator])
         == SplitState([], AppendWord(comps, w), separator, 0, 0)
  {
    var st := SplitState([], comps, separator, 0, 0);
    RunWord(separator, st, w);
    assert [] + w == w;
    RunAppend(separator, st, w, [separator]);
    RunOne(separator, st.(word := w), separator);
  }

  /** A last word of ordinary characters is handed to `appendWord`. */
  lemma LastWord(separator: char, comps: seq<string>, w: string)
    requires w != [] && forall k :: 0 <= k < |w| ==> w[k] != separator && !IsQuote(w[k])
    ensures Finish(Run(separator, SplitState([], comps, separator, 0, 0), w)) == AppendWord(comps, w)
  {
    RunWord(separator, SplitState([], comps, separator, 0, 0), w);
    assert [] + w == w;
  }

  /** A quoted phrase stays one component: `include 'a b'`. */
  lemma SplitIncludeQuoted()
    ensures Split("include 'a b'") == ["include", "'a b'"]
  {
    WordThenSeparator(' ', [], "include");
    assert "include" + [' '] == "include ";
    assert AppendWord([], "include") == ["include"];
    var st := SplitState([], ["include"], ' ', 0, 0);
    var q := "'a b'";
    assert q == ['\''] + "a b" + ['\''];
    RunQuoted(' ', st, '\'', "a b");
    assert Run(' ', st, q).word == q && Run(' ', st, q).components == ["include"];
    RunAppend(' ', Start(' '), "include ", q);
    IncludeParts();
    IncludeThenQuoted();
  }

  lemma IncludeParts()
    ensures "include " + "'a b'" == "include 'a b'"
  {
  }

  lemma IncludeThenQuoted()
    ensures AppendWord(["include"], "'a b'") == ["include", "'a b'"]
  {
    var last := "include";
    assert last[|last| - 1] == 'e';
    assert !EndsWithSpecial(last);
    var w := "'a b'";
    assert w[0] == '\'' && w[|w| - 1] == '\'';
    AppendOrdinary(["include"], w);
    assert ["include"] + [w] == ["include", w];
  }

  /** A word after a trailing comma is merged into it: `a, b`. */
  lemma SplitCommaMerges()
    ensures Split("a, b") == ["a,b"]
  {
    WordThenSeparator(' ', [], "a,");
    assert "a," + [' '] == "a, ";
    assert AppendWord([], "a,") == ["a,"];
    LastWord(' ', ["a,"], "b");
    RunAppend(' ', Start(' '), "a, ", "b");
    assert "a, " + "b" == "a, b";
    CommaThenB();
  }

  lemma CommaThenB()
    ensures AppendWord(["a,"], "b") == ["a,b"]
  {
    var comps := ["a,"];
    assert comps[|comps| - 1] == "a,";
    assert EndsWithSpecial("a,");
    assert "b" != "for";
    assert AppendWord(comps, "b") == comps[..0] + [comps[0] + "b"];
    assert comps[0] + "b" == "a,b";
    assert comps[..0] == [];
  }

  /** The first word is never cut: `(a)`. */
  lemma SplitParenFirstWord()
    ensures Split("(a)") == ["(a)"]
  {
    LastWord(' ', [], "(a)");
    assert AppendWord([], "(a)") == ["(a)"];
  }

  /** A later word has its parentheses split off: `x (a)`. */
  lemma SplitParenLater()
    ensures Split("x (a)") == ["x", "(", "a", ")"]
  {
    WordThenSeparator(' ', [], "x");
    assert "x" + [' '] == "x ";
    assert AppendWord([], "x") == ["x"];
    LastWord(' ', ["x"], "(a)");
    RunAppend(' ', Start(' '), "x ", "(a)");
    assert "x " + "(a)" == "x (a)";
    ParenThenA();
  }

  lemma ParenThenA()
    ensures AppendWord(["x"], "(a)") == ["x", "(", "a", ")"]
  {
    var w := "(a)";
    assert w[|w| - 1] == ')' && w[0] == '(';
    assert !EndsWithSpecial("x");
    NotInSpecials(w);
    assert LeadingParen(w);
    assert w[..1] == "(" && w[1..] == "a)";
    assert AppendWord(["x"], w) == AppendWord(["x"] + ["("], "a)");
    assert ["x"] + ["("] == ["x", "("];
    AParen();
  }

  lemma AParen()
    ensures AppendWord(["x", "("], "a)") == ["x", "(", "a", ")"]
  {
    var w := "a)";
    var comps := ["x", "("];
    assert comps[|comps| - 1] == "(";
    assert !EndsWithSpecial("(");
    NotInSpecials(w);
    assert w[0] == 'a' && w[|w| - 1] == ')';
    assert !LeadingParen(w) && TrailingParen(w);
    assert w[..|w| - 1] == "a" && w[|w| - 1..] == ")";
    assert AppendWord(comps, w) == AppendWord(comps, "a") + [")"];
    AppendOrdinary(comps, "a");
    assert comps + ["a"] + [")"] == ["x", "(", "a", ")"];
  }

  /** A labelled `for` after a first component ending in `,` stays apart:
      `outer, for`. */
  lemma SplitLabelledFor()
    ensures Split("outer, for") == ["outer,", "for"]
  {
    WordThenSeparator(' ', [], "outer,");
    assert "outer," + [' '] == "outer, ";
    assert AppendWord([], "outer,") == ["outer,"];
    LastWord(' ', ["outer,"], "for");
    RunAppend(' ', Start(' '), "outer, ", "for");
    LabelParts();
    LabelThenFor();
  }

  lemma LabelParts()
    ensures "outer, " + "for" == "outer, for"
  {
  }

  lemma LabelThenFor()
    ensures AppendWord(["outer,"], "for") == ["outer,", "for"]
  {
    var comps := ["outer,"];
    assert comps[|comps| - 1] == "outer,";
    assert EndsWithSpecial("outer,");
    assert AppendWord(comps, "for") == comps + ["for"];
  }

  /** The exception holds only after the first component: `x y, for`
      merges the `for`. */
  lemma SplitLaterForMerges()
    ensures Split("x y, for") == ["x", "y,for"]
  {
    RunXComma();
    LastWord(' ', ["x", "y,"], "for");
    RunAppend(' ', Start(' '), "x y, ", "for");
    LaterParts();
    CommaThenFor();
  }

  lemma LaterParts()
    ensures "x y, " + "for" == "x y, for"
  {
  }

  lemma RunXComma()
    ensures Run(' ', Start(' '), "x y, ") == SplitState([], ["x", "y,"], ' ', 0, 0)
  {
    WordThenSeparator(' ', [], "x");
    assert "x" + [' '] == "x ";
    assert AppendWord([], "x") == ["x"];
    WordThenSeparator(' ', ["x"], "y,");
    assert "y," + [' '] == "y, ";
    XThenComma();
    RunAppend(' ', Start(' '), "x ", "y, ");
    assert "x " + "y, " == "x y, ";
  }

  lemma XThenComma()
    ensures AppendWord(["x"], "y,") == ["x", "y,"]
  {
    assert !EndsWithSpecial("x");
    var w := "y,";
    assert w[0] == 'y' && w[|w| - 1] == ',';
    AppendOrdinary(["x"], w);
    assert ["x"] + [w] == ["x", w];
  }

  lemma CommaThenFor()
    ensures AppendWord(["x", "y,"], "for") == ["x", "y,for"]
  {
    var comps := ["x", "y,"];
    assert comps[|comps| - 1] == "y,";
    assert EndsWithSpecial("y,");
    assert AppendWord(comps, "for") == comps[..1] + [comps[1] + "for"];
    assert comps[1] + "for" == "y,for";
    assert comps[..1] == ["x"];
  }

  /** A word that is a piece of `,|:` is merged, whatever precedes it:
      `a |:`. */
  lemma SplitSpecialsPiece()
    ensures Split("a |:") == ["a|:"]
  {
    WordThenSeparator(' ', [], "a");
    assert "a" + [' '] == "a ";
    assert AppendWord([], "a") == ["a"];
    LastWord(' ', ["a"], "|:");
    RunAppend(' ', Start(' '), "a ", "|:");
    assert "a " + "|:" == "a |:";
    APieceOfSpecials();
  }

  lemma APieceOfSpecials()
    ensures AppendWord(["a"], "|:") == ["a|:"]
  {
    var comps := ["a"];
    assert !EndsWithSpecial("a");
    assert OccursAt(Specials, "|:", 1) by {
      assert Specials[1..3] == "|:";
    }
    assert IsSubstring("|:", Specials);
    assert AppendWord(comps, "|:") == comps[..0] + [comps[0] + "|:"];
    assert comps[0] + "|:" == "a|:";
    assert comps[..0] == [];
  }

  /** A later word's leading `)` is split off: `x )a`. */
  lemma SplitLeadingClose()
    ensures Split("x )a") == ["x", ")", "a"]
  {
    WordThenSeparator(' ', [], "x");
    assert "x" + [' '] == "x ";
    assert AppendWord([], "x") == ["x"];
    LastWord(' ', ["x"], ")a");
    RunAppend(' ', Start(' '), "x ", ")a");
    assert "x " + ")a" == "x )a";
    CloseThenA();
  }

  lemma CloseThenA()
    ensures AppendWord(["x"], ")a") == ["x", ")", "a"]
  {
    var w := ")a";
    assert w[0] == ')' && w[|w| - 1] == 'a';
    assert !EndsWithSpecial("x");
    NotInSpecials(w);
    assert LeadingParen(w);
    assert w[..1] == ")" && w[1..] == "a";
    assert AppendWord(["x"], w) == AppendWord(["x"] + [")"], "a");
    assert ["x"] + [")"] == ["x", ")"];
    assert !EndsWithSpecial(")");
    AppendOrdinary(["x", ")"], "a");
    assert ["x", ")"] + ["a"] == ["x", ")", "a"];
  }

  /** A trailing `(` is cut off a later word: `x a(` gives `x`, `a` and `(`. */
  lemma SplitTrailingOpen()
    ensures Split("x a(") == ["x", "a", "("]
  {
    WordThenSeparator(' ', [], "x");
    assert "x" + [' '] == "x ";
    assert AppendWord([], "x") == ["x"];
    LastWord(' ', ["x"], "a(");
    RunAppend(' ', Start(' '), "x ", "a(");
    assert "x " + "a(" == "x a(";
    AThenOpen();
  }

  lemma AThenOpen()
    ensures AppendWord(["x"], "a(") == ["x", "a", "("]
  {
    var w := "a(";
    assert w[0] == 'a' && w[|w| - 1] == '(';
    assert !EndsWithSpecial("x");
    NotInSpecials(w);
    assert !LeadingParen(w) && TrailingParen(w);
    assert w[..|w| - 1] == "a" && w[|w| - 1..] == "(";
    assert AppendWord(["x"], w) == AppendWord(["x"], "a") + ["("];
    AppendOrdinary(["x"], "a");
    assert ["x"] + ["a"] == ["x", "a"];
  }

  /** With three quotes of each kind read and no region open, the space
      after them is dropped and the words run together:
      `'"'"'" x` is one component. */
  lemma SplitBothCountsOdd()
    ensures Split("'\"'\"'\" x") == ["'\"'\"'\"x"]
  {
    var w := "'\"'\"'\"";
    var st := SplitState(w, [], ' ', 3, 3);
    SixQuotes();
    RunOne(' ', st, ' ');
    assert Step(' ', st, ' ') == st;
    RunWord(' ', st, "x");
    RunAppend(' ', Start(' '), w, " ");
    RunAppend(' ', Start(' '), w + " ", "x");
    BothOddParts();
    assert AppendWord([], w + "x") == [w + "x"];
  }

  lemma BothOddParts()
    ensures "'\"'\"'\"" + " " + "x" == "'\"'\"'\" x"
    ensures "'\"'\"'\"" + "x" == "'\"'\"'\"x"
  {
  }

  /** Reading `'"'"'"` closes both regions with three quotes of each kind. */
  lemma SixQuotes()
    ensures Run(' ', Start(' '), "'\"'\"'\"") == SplitState("'\"'\"'\"", [], ' ', 3, 3)
  {
    var st0 := Start(' ');
    var a := "'\"'";
    var b := "\"'\"";
    assert a == ['\''] + "\"" + ['\''];
    assert b == ['"'] + "'" + ['"'];
    RunQuoted(' ', st0, '\'', "\"");
    var st1 := Run(' ', st0, a);
    RunCounts(' ', st0, a);
    CountThree(a, '\'');
    CountThree(a, '"');
    RunQuoted(' ', st1, '"', "'");
    RunCounts(' ', st1, b);
    CountThree(b, '\'');
    CountThree(b, '"');
    RunAppend(' ', st0, a, b);
    assert [] + a + b == "'\"'\"'\"";
  }

  lemma CountThree(s: string, ch: char)
    requires |s| == 3
    ensures Count(s, ch) == (if s[0] == ch then 1 else 0) + (if s[1] == ch then 1 else 0) + (if s[2] == ch then 1 else 0)
  {
    var t := s[1..];
    var v := t[1..];
    assert t[0] == s[1] && v[0] == s[2] && v[1..] == [];
    assert Count(v, ch) == (if s[2] == ch then 1 else 0) + Count(v[1..], ch);
    assert Count(t, ch) == (if s[1] == ch then 1 else 0) + Count(v, ch);
  }
}

=== FILE: strings.dfy ===
/** String helpers the lexer relies on: the `String` extension of the lexer
    (`findFirstNot`, `findLastNot`, `trim(character:)`) and the Foundation
    operations it calls (`components(separatedBy:)`, `joined(separator:)`,
    `range(of:)`), each over sequences of Unicode scalars. */
module Strings {
  import opened Wrappers

  /** Concatenation of all parts, in order. */
  function Concat(parts: seq<string>): string
  {
    if parts == [] then [] else Concat(parts[..|parts| - 1]) + parts[|parts| - 1]
  }

  lemma {:induction false} ConcatAppend(a: seq<string>, b: seq<string>)
    ensures Concat(a + b) == Concat(a) + Concat(b)
    decreases |b|
  {
    if b == [] {
      assert a + b == a;
    } else {
      assert (a + b)[..|a + b| - 1] == a + b[..|b| - 1];
      ConcatAppend(a, b[..|b| - 1]);
    }
  }

  predicate IsPrefix(p: string, s: string)
  {
    |p| <= |s| && s[..|p|] == p
  }

  /** `pat` occurs in `s` starting at position `p`. */
  predicate OccursAt(s: string, pat: string, p: nat)
  {
    p + |pat| <= |s| && s[p..p + |pat|] == pat
  }

  /** `w` is a substring of `s` (Swift `s.contains(w)` on strings). */
  predicate IsSubstring(w: string, s: string)
  {
    exists p: nat | p <= |s| :: OccursAt(s, w, p)
  }

  /** First index of `c` in `s`, searching from `from`. */
  function IndexOf(s: string, c: char, from: nat := 0): (r: Option<nat>)
    ensures r.Some? ==> from <= r.value < |s| && s[r.value] == c
    ensures r.Some? ==> forall j :: from <= j < r.value ==> s[j] != c
    ensures r.None? ==> forall j :: from <= j < |s| ==> s[j] != c
    decreases |s| - from
  {
    if from >= |s| then None
    else if s[from] == c then Some(from)
    else IndexOf(s, c, from + 1)
  }

  /** `components(separatedBy:)` with a one-character separator: the parts
      between separators, empty parts included. */
  function Split(s: string, sep: char): (r: seq<string>)
    ensures |r| >= 1
    ensures forall k :: 0 <= k < |r| ==> sep !in r[k]
    decreases |s|
  {
    match IndexOf(s, sep)
    case None => [s]
    case Some(i) => [s[..i]] + Split(s[i + 1..], sep)
  }

  /** Joining the parts with the separator gives back the split string. */
  lemma {:induction false} JoinSplit(s: string, sep: char)
    ensures Join(Split(s, sep), sep) == s
    decreases |s|
  {
    match IndexOf(s, sep)
    case None =>
    case Some(i) =>
      JoinSplit(s[i + 1..], sep);
      JoinSplitStep(s, sep, i);
      CutAt(s, i);
  }

  /** A string is what comes before an index, the scalar there, and the rest. */
  lemma CutAt(s: string, i: nat)
    requires i < |s|
    ensures s == s[..i] + [s[i]] + s[i + 1..]
  {
  }

  /** One cut of `JoinSplit`: the first part, the separator, then the joined rest. */
  lemma JoinSplitStep(s: string, sep: char, i: nat)
    requires IndexOf(s, sep) == Some(i)
    ensures i < |s| && Join(Split(s, sep), sep) == s[..i] + [sep] + Join(Split(s[i + 1..], sep), sep)
  {
    var parts := Split(s, sep);
    assert parts == [s[..i]] + Split(s[i + 1..], sep);
    assert |parts| > 1 && parts[0] == s[..i] && parts[1..] == Split(s[i + 1..], sep);
  }

  /** `joined(separator:)`: the parts with one separator between neighbours. */
  function Join(parts: seq<string>, sep: char): string
  {
    if parts == [] then []
    else if |parts| == 1 then parts[0]
    else parts[0] + [sep] + Join(parts[1..], sep)
  }

  lemma {:induction false} SplitAfterPart(w: string, t: string, sep: char)
    requires sep !in w
    ensures Split(w + [sep] + t, sep) == [w] + Split(t, sep)
  {
    var s := w + [sep] + t;
    assert s[|w|] == sep;
    assert forall j :: 0 <= j < |w| ==> s[j] == w[j];
    assert IndexOf(s, sep) == Some(|w|);
    assert s[..|w|] == w;
    assert s[|w| + 1..] == t;
  }

  /** Splitting undoes joining when no part holds the separator. */
  lemma {:induction false} SplitJoin(parts: seq<string>, sep: char)
    requires |parts| >= 1
    requires forall k :: 0 <= k < |parts| ==> sep !in parts[k]
    ensures Split(Join(parts, sep), sep) == parts
    decreases |parts|
  {
    if |parts| == 1 {
      assert IndexOf(parts[0], sep) == None;
    } else {
      SplitJoin(parts[1..], sep);
      SplitAfterPart(parts[0], Join(parts[1..], sep), sep);
      assert [parts[0]] + parts[1..] == parts;
    }
  }

  /** An occurrence inside a suffix is an occurrence in the whole string. */
  lemma OccursInSuffix(s: string, d: nat, pat: string, p: nat)
    requires d <= |s| && OccursAt(s[d..], pat, p)
    ensures OccursAt(s, pat, d + p)
  {
    assert s[d + p..d + p + |pat|] == s[d..][p..p + |pat|];
  }

  /** A character that is neither the separator nor in any part is absent
      from the joined string. */
  lemma {:induction false} JoinAvoids(parts: seq<string>, sep: char, ch: char)
    requires ch != sep
    requires forall k :: 0 <= k < |parts| ==> ch !in parts[k]
    ensures ch !in Join(parts, sep)
    decreases |parts|
  {
    if |parts| > 1 {
      JoinAvoids(parts[1..], sep, ch);
    }
  }

  /** Foundation's `CharacterSet.newlines`: U+000A to U+000D, U+0085,
      U+2028 and U+2029. */
  predicate IsNewline(c: char)
  {
    '\n' <= c <= '\r' || c == '\U{0085}' || c == '\U{2028}' || c == '\U{2029}'
  }

  /** First index holding a newline, searching from `from`. */
  function IndexOfNewline(s: string, from: nat := 0): (r: Option<nat>)
    ensures r.Some? ==> from <= r.value < |s| && IsNewline(s[r.value])
    ensures r.Some? ==> forall j :: from <= j < r.value ==> !IsNewline(s[j])
    ensures r.None? ==> forall j :: from <= j < |s| ==> !IsNewline(s[j])
    decreases |s| - from
  {
    if from >= |s| then None
    else if IsNewline(s[from]) then Some(from)
    else IndexOfNewline(s, from + 1)
  }

  /** `components(separatedBy: .newlines)`: the parts between newline
      characters, empty parts included (so `"\r\n"` yields an empty part). */
  function SplitLines(s: string): (r: seq<string>)
    ensures |r| >= 1
    ensures forall k, j :: 0 <= k < |r| && 0 <= j < |r[k]| ==> !IsNewline(r[k][j])
    decreases |s|
  {
    match IndexOfNewline(s)
    case None => [s]
    case Some(i) => [s[..i]] + SplitLines(s[i + 1..])
  }

  lemma SplitLinesUnfold(s: string, i: nat)
    requires IndexOfNewline(s) == Some(i)
    ensures SplitLines(s) == [s[..i]] + SplitLines(s[i + 1..])
  {
  }

  /** `s` with every newline scalar written as `c`. */
  function NewlinesAs(s: string, c: char): (r: string)
    ensures |r| == |s|
  {
    seq(|s|, j requires 0 <= j < |s| => if IsNewline(s[j]) then c else s[j])
  }

  /** Splitting on the newline set is splitting on one newline character
      once every newline scalar has been written as that character. */
  lemma {:induction false} SplitLinesIsSplit(s: string)
    ensures SplitLines(s) == Split(NewlinesAs(s, '\n'), '\n')
    decreases |s|
  {
    var t := NewlinesAs(s, '\n');
    match IndexOfNewline(s)
    case None =>
      assert t == s;
      assert IndexOf(t, '\n') == None;
    case Some(i) =>
      SplitLinesIsSplit(s[i + 1..]);
      SplitLinesCut(s, i);
      SplitAfterPart(s[..i], NewlinesAs(s[i + 1..], '\n'), '\n');
  }

  /** The first newline cuts the normalised string into the line before it,
      the one separator and the normalised rest. */
  lemma SplitLinesCut(s: string, i: nat)
    requires IndexOfNewline(s) == Some(i)
    ensures '\n' !in s[..i]
    ensures NewlinesAs(s, '\n') == s[..i] + ['\n'] + NewlinesAs(s[i + 1..], '\n')
  {
    var t := NewlinesAs(s, '\n');
    var u := s[..i] + ['\n'] + NewlinesAs(s[i + 1..], '\n');
    assert forall j :: 0 <= j < i ==> !IsNewline(s[j]);
    assert forall j :: 0 <= j < |t| ==> t[j] == u[j];
  }

  /** Joining the lines with `\n` gives back the template with every
      newline scalar written as `\n`. */
  lemma JoinSplitLines(s: string)
    ensures Join(SplitLines(s), '\n') == NewlinesAs(s, '\n')
  {
    SplitLinesIsSplit(s);
    JoinSplit(NewlinesAs(s, '\n'), '\n');
  }

  /** A carriage return and line feed are two newlines, with an empty line
      between them. */
  lemma SplitLinesCrLf()
    ensures SplitLines("a\r\nb") == ["a", "", "b"]
  {
    var s := "a\r\nb";
    assert IndexOfNewline(s) == Some(1) by { assert IsNewline(s[1]) && !IsNewline(s[0]); }
    assert s[..1] == "a" && s[2..] == "\nb";
    var u := "\nb";
    assert IndexOfNewline(u) == Some(0);
    assert u[..0] == "" && u[1..] == "b";
    assert IndexOfNewline("b") == None;
  }

  /** Every line produced by `SplitLines` occurs in the split string. */
  lemma {:induction false} SplitLinesPartsOccur(s: string, k: nat)
    requires k < |SplitLines(s)|
    ensures exists p: nat :: OccursAt(s, SplitLines(s)[k], p)
    decreases |s|
  {
    var idx := IndexOfNewline(s);
    if idx.None? {
      assert SplitLines(s) == [s];
      assert OccursAt(s, s, 0);
    } else {
      var i := idx.value;
      SplitLinesUnfold(s, i);
      if k == 0 {
        assert SplitLines(s)[0] == s[..i];
        assert OccursAt(s, s[..i], 0);
      } else {
        var t := s[i + 1..];
        assert SplitLines(s)[k] == SplitLines(t)[k - 1];
        SplitLinesPartsOccur(t, k - 1);
        var p: nat :| OccursAt(t, SplitLines(t)[k - 1], p);
        OccursInSuffix(s, i + 1, SplitLines(t)[k - 1], p);
      }
    }
  }

  /** An occurrence anywhere is found by a search over the whole string. */
  lemma FindInWhole(s: string, pat: string, p: nat)
    requires pat != [] && OccursAt(s, pat, p)
    ensures FindIn(s, pat, 0, |s|).Some?
  {
  }

  /** `filter { !$0.isEmpty }`: the non-empty parts, in order. */
  function DropEmpty(parts: seq<string>): (r: seq<string>)
    ensures forall k :: 0 <= k < |r| ==> r[k] != []
  {
    if parts == [] then []
    else
      var init := parts[..|parts| - 1];
      var r0 := DropEmpty(init);
      if parts[|parts| - 1] == [] then r0 else r0 + [parts[|parts| - 1]]
  }

  /** `range(of: pat, range: lo..<hi)`: the first position in `lo..hi` where
      `pat` occurs entirely inside the window. Foundation finds nothing for an
      empty pattern. */
  function FindIn(s: string, pat: string, lo: nat, hi: nat): (r: Option<nat>)
    requires lo <= hi <= |s|
    ensures r.Some? ==> pat != [] && lo <= r.value && r.value + |pat| <= hi && OccursAt(s, pat, r.value)
    ensures r.Some? ==> forall p :: lo <= p < r.value ==> !OccursAt(s, pat, p)
    ensures r.None? ==> pat == [] || forall p :: lo <= p && p + |pat| <= hi ==> !OccursAt(s, pat, p)
    decreases hi - lo
  {
    if pat == [] || lo + |pat| > hi then None
    else if s[lo..lo + |pat|] == pat then Some(lo)
    else FindIn(s, pat, lo + 1, hi)
  }

  /** Number of leading copies of `c` in `s` (reference definition). */
  function LeadingRun(s: string, c: char): (n: nat)
    ensures n <= |s|
    ensures forall j :: 0 <= j < n ==> s[j] == c
    ensures n < |s| ==> s[n] != c
  {
    if s == [] || s[0] != c then 0 else 1 + LeadingRun(s[1..], c)
  }

  /** Number of trailing copies of `c` in `s` (reference definition). */
  function TrailingRun(s: string, c: char): (n: nat)
    ensures n <= |s|
    ensures forall j :: |s| - n <= j < |s| ==> s[j] == c
    ensures n < |s| ==> s[|s| - n - 1] != c
  {
    if s == [] || s[|s| - 1] != c then 0 else 1 + TrailingRun(s[..|s| - 1], c)
  }

  /** `findFirstNot(character:)`: the first index not holding `c`. */
  function FindFirstNot(s: string, c: char, from: nat := 0): (r: Option<nat>)
    ensures r.Some? ==> from <= r.value < |s| && s[r.value] != c
    ensures r.Some? ==> forall j :: from <= j < r.value ==> s[j] == c
    ensures r.None? ==> forall j :: from <= j < |s| ==> s[j] == c
    decreases |s| - from
  {
    if from >= |s| then None
    else if s[from] != c then Some(from)
    else FindFirstNot(s, c, from + 1)
  }

  /** `findLastNot(character:)`: walks down from the last index and stops
      BEFORE index 0, returning one past the last index not holding `c`.
      Index 0 itself is never inspected. */
  function FindLastNotFrom(s: string, c: char, i: nat): (r: Option<nat>)
    requires i < |s|
    ensures r.Some? ==> 2 <= r.value <= i + 1 && s[r.value - 1] != c
    ensures r.Some? ==> forall j :: r.value <= j <= i ==> s[j] == c
    ensures r.None? ==> forall j :: 1 <= j <= i ==> s[j] == c
    decreases i
  {
    if i == 0 then None
    else if s[i] != c then Some(i + 1)
    else FindLastNotFrom(s, c, i - 1)
  }

  /** The empty string is not allowed: the source steps before `endIndex`
      unconditionally. */
  function FindLastNot(s: string, c: char): (r: Option<nat>)
    requires s != []
    ensures r.Some? ==> 2 <= r.value <= |s| && s[r.value - 1] != c
    ensures r.Some? ==> forall j :: r.value <= j < |s| ==> s[j] == c
    ensures r.None? ==> forall j :: 1 <= j < |s| ==> s[j] == c
  {
    FindLastNotFrom(s, c, |s| - 1)
  }

  /** `trim(character:)`. When some character after the first differs from
      `c` (the trailing run of `c` stops before index 1), this is the usual
      trim: both runs of `c` are removed. Otherwise (every character after
      index 0 is `c`) the string comes back unchanged, so `"x "` and `"   "`
      are not trimmed. */
  function Trim(s: string, c: char): (r: string)
    requires s != []
    ensures TrailingRun(s, c) >= |s| - 1 ==> r == s
    ensures TrailingRun(s, c) < |s| - 1 ==>
      && LeadingRun(s, c) + TrailingRun(s, c) < |s|
      && r == s[LeadingRun(s, c)..|s| - TrailingRun(s, c)]
      && r[0] != c && r[|r| - 1] != c
    ensures forall ch :: ch in r ==> ch in s
  {
    var first := match FindFirstNot(s, c) case Some(i) => i case None => 0;
    var last := match FindLastNot(s, c) case Some(i) => i case None => |s|;
    TrimSlice(s, c, first, last);
    SliceMembers(s, first, last);
    s[first..last]
  }

  lemma SliceMembers(s: string, lo: nat, hi: nat)
    requires lo <= hi <= |s|
    ensures forall ch :: ch in s[lo..hi] ==> ch in s
  {
    forall ch | ch in s[lo..hi]
      ensures ch in s
    {
      var k :| 0 <= k < hi - lo && s[lo..hi][k] == ch;
      assert s[lo + k] == ch;
    }
  }

  /** Where the two searches of `trim` stop, in terms of the run lengths. */
  lemma TrimSlice(s: string, c: char, first: nat, last: nat)
    requires s != []
    requires first == match FindFirstNot(s, c) case Some(i) => i case None => 0
    requires last == match FindLastNot(s, c) case Some(i) => i case None => |s|
    ensures first <= last <= |s|
    ensures TrailingRun(s, c) >= |s| - 1 ==> s[first..last] == s
    ensures TrailingRun(s, c) < |s| - 1 ==>
      && LeadingRun(s, c) + TrailingRun(s, c) < |s|
      && s[first..last] == s[LeadingRun(s, c)..|s| - TrailingRun(s, c)]
      && s[first..last][0] != c && s[first..last][last - first - 1] != c
  {
    if TrailingRun(s, c) < |s| - 1 {
      TrimSliceRuns(s, c, first, last);
    } else {
      TrimSliceWhole(s, c, first, last);
    }
  }

  lemma TrimSliceRuns(s: string, c: char, first: nat, last: nat)
    requires TrailingRun(s, c) < |s| - 1
    requires first == match FindFirstNot(s, c) case Some(i) => i case None => 0
    requires last == match FindLastNot(s, c) case Some(i) => i case None => |s|
    ensures first == LeadingRun(s, c) < last == |s| - TrailingRun(s, c)
    ensures s[first..last][0] != c && s[first..last][last - first - 1] != c
  {
    var j := |s| - TrailingRun(s, c) - 1;
    FirstNotIsLeading(s, c, j);
    LastNotIsTrailing(s, c, j);
    assert s[first..last][0] == s[first] && s[first..last][last - first - 1] == s[last - 1];
  }

  lemma TrimSliceWhole(s: string, c: char, first: nat, last: nat)
    requires s != [] && TrailingRun(s, c) >= |s| - 1
    requires first == match FindFirstNot(s, c) case Some(i) => i case None => 0
    requires last == match FindLastNot(s, c) case Some(i) => i case None => |s|
    ensures first == 0 && last == |s| && s[first..last] == s
  {
    assert s[0..|s|] == s;
  }

  lemma FirstNotIsLeading(s: string, c: char, j: nat)
    requires j < |s| && s[j] != c
    ensures LeadingRun(s, c) <= j && FindFirstNot(s, c) == Some(LeadingRun(s, c))
  {
  }

  lemma LastNotIsTrailing(s: string, c: char, j: nat)
    requires 1 <= j < |s| && s[j] != c
    ensures j < |s| - TrailingRun(s, c) && FindLastNot(s, c) == Some(|s| - TrailingRun(s, c))
  {
  }
}

=== FILE: tokens.dfy ===
/** Tokens handed from the lexer to the parser, with the source map that
    points each one back into its template and the whitespace-control
    markers of block tags. */
module Tokens {
  import opened Wrappers
  import opened Strings
  import SmartSplit

  /** Whitespace control on one side of a block tag: `+` keeps, `-` trims. */
  datatype Behaviour = Unspecified | Trim | Keep

  datatype WhitespaceBehaviour = WhitespaceBehaviour(leading: Behaviour, trailing: Behaviour)

  const UnspecifiedWhitespace: WhitespaceBehaviour := WhitespaceBehaviour(Unspecified, Unspecified)

  /** A line of the template, its 1-based number (0 when unknown) and the
      offset of the token inside that line. */
  datatype ContentLocation = ContentLocation(content: string, lineNumber: nat, lineOffset: int)

  const NoLocation: ContentLocation := ContentLocation([], 0, 0)

  datatype SourceMap = SourceMap(filename: Option<string>, location: ContentLocation)

  datatype Kind = Text | Variable | Comment | Block

  datatype Token = Token(
    contents: string,
    kind: Kind,
    sourceMap: SourceMap,
    whitespace: Option<WhitespaceBehaviour>)

  function TextToken(value: string, at: SourceMap): Token
  {
    Token(value, Text, at, None)
  }

  function VariableToken(value: string, at: SourceMap): Token
  {
    Token(value, Variable, at, None)
  }

  function CommentToken(value: string, at: SourceMap): Token
  {
    Token(value, Comment, at, None)
  }

  /** Only block tokens carry a whitespace behaviour. */
  function BlockToken(value: string, at: SourceMap, whitespace: WhitespaceBehaviour := UnspecifiedWhitespace): Token
  {
    Token(value, Block, at, Some(whitespace))
  }

  /** `components`: the contents split on spaces outside quotes. Every
      component is non-empty and together they spell the contents minus
      the unquoted spaces. */
  function Components(t: Token): (r: seq<string>)
    ensures forall k :: 0 <= k < |r| ==> r[k] != []
    ensures Concat(r) == SmartSplit.Unquoted(' ', None, t.contents)
  {
    SmartSplit.Split(t.contents, ' ')
  }

  /** Token equality: contents, kind and source map; the whitespace
      behaviour does not take part. */
  predicate SameToken(a: Token, b: Token)
  {
    a.contents == b.contents && a.kind == b.kind && a.sourceMap == b.sourceMap
  }

  /** Tokens are equal exactly when they agree once the whitespace behaviour
      is erased, so equality is an equivalence and blind to `whitespace`. */
  lemma SameTokenErasesWhitespace(a: Token, b: Token)
    ensures SameToken(a, b) <==> a.(whitespace := None) == b.(whitespace := None)
  {
  }

  lemma BlockWhitespaceIgnored(value: string, at: SourceMap, w1: WhitespaceBehaviour, w2: WhitespaceBehaviour)
    ensures SameToken(BlockToken(value, at, w1), BlockToken(value, at, w2))
    ensures w1 != w2 ==> BlockToken(value, at, w1) != BlockToken(value, at, w2)
  {
  }
}

=== FILE: wrappers.dfy ===
/** Failure-compatible wrappers used throughout the model: `Option` for the
    Swift optionals and `Result` for the functions that throw. */
module Wrappers {

  datatype Option<+T> = None | Some(value: T)

  datatype Result<+R, +E> = Success(value: R) | Failure(error: E)
}
